=== FILE: README.md ===
# seeclick-crawler: element scans, capture, work partition, CDX tools

A Dafny model of the pure logic inside a Selenium crawler. The crawler visits
web pages and records the clickable and tooltip-bearing elements of each
page: their box, their label and their kind. It saves an optionally annotated
screenshot, and spreads the URL list of a CDX index over parallel workers.
The browser is replaced by the values its reads return. Every piece is then
a function over sequences and strings:

- `scan.dfy` covers the two element scans. The clickable scan and the
  titled-element hover scan (version 2) classify each element, then keep the
  first element of every `x-y-w-h` geometry signature.
- `geometry.dfy` defines the signature string. It proves that the signature
  parses back, so deduplicating on the string is deduplicating on the box.
- `distinct.dfy` holds the first-occurrence reference (`FirstsBy`) that both
  scans and the per-host grouping are proved against.
- `capture.dfy` covers `processURL`. It models the wait outcome, which
  browser or PIL call raises, the screenshot path, the clickable pool followed by the hover pool, the
  url/image tags, the image size and the outline rectangles.
- `leaf.dfy` covers the `isLeafElement` regular expression.
- `partition.dfy` covers `split_task_files`: the Python slice, the block
  arithmetic and the task-file text.
- `worker.dfy` covers the `worker_function` loop as an event trace: visits,
  written records, flushes, error logs, restarts and the final quit.
- `logconfig.dfy` covers the `configLogging` level mapping.
- `cdx.dfy` covers `extract_urls_from_cdx`.
- `hostdedup.dfy` covers `distinct_urls_from_cdx`.
- `pystr.dfy` holds the Python string semantics the rest relies on:
  `isspace`/`strip`, `split(' ')`, slices with clamping and negative
  bounds, and `str(int)`. `wrappers.dfy` defines `Option` and `Result`.

Several inputs enter the model as parameters:

- The browser's answers: element reads, each a value or an exception; whether
  the page showed a `div` in time; which browser or PIL call of `processURL`,
  if any, raises; the scroll size.
- The per-URL outcome of `processURL` inside a worker.
- `generate_url_hash` and `parse_url_from_cdx_line`. Both are imported from
  `utils` (crawel.py:12, preprocess_cdx.py:5), but utils.py defines neither,
  so both are function parameters. As written, `processURL` without a save
  name would raise `NameError` (crawel.py:247) and preprocess_cdx.py would
  fail at its import; the model follows the evidently intended program, in
  which both functions exist.
- The `urlparse` hostname, also a function parameter.
- The shuffled order of the URL list.
- The draws of `random.choice`.

Behaviour worth noting, all of it modelled as the code has it:

- A restart happens after a successful URL whose 0-based index `i` satisfies
  `i > 0 and i % 100 == 0`. That is after the 101st, 201st, … URL, not the
  100th. A URL that raises skips the restart check entirely.
- The hover scan (version 2) emits an element only when its text is None or
  blank. Its label is always the `title`. An element with visible text is
  never emitted.
- The clickable record's type string is `"text"`, not `"clickable"`.
- Sizes are rejected only when `width == 0 or height == 0`. A negative size
  would pass the filter.
- `Crawler.bounded` is hard-coded to `False` in crawel.py:75, so as shipped
  no bound check ever runs. The model keeps `bounded` as a setting so that
  both branches are stated.

## Model

| member | source | states |
|---|---|---|
| PyStr.Strip | utils.py:9 | `strip()` returns a string with no whitespace at either end, never longer than its input |
| PyStr.StripIsInfix | utils.py:9 | `strip()` only removes an all-whitespace prefix and an all-whitespace suffix; what remains is a contiguous piece of the input |
| PyStr.StripRemovesPadding | main.py:64 | stripping whitespace padding off an already stripped string gives back exactly that string |
| PyStr.StripEmptyIffAllSpace | crawel.py:174 | `text.strip() == ''` holds exactly when every character of `text` is whitespace |
| PyStr.StripIdempotent | utils.py:9 | stripping twice is stripping once |
| PyStr.StripAbsorbsPadding | utils.py:7-9 | whitespace added around any string, such as the newline a file line keeps, does not change what `strip()` returns |
| PyStr.Split | utils.py:9 | `split(' ')` gives one more field than there are spaces (empty fields included), and no field holds a space |
| PyStr.SplitRejoins | utils.py:9 | joining the fields of `split(' ')` with single spaces restores the input exactly, so no text is lost or invented |
| PyStr.SplitJoin | utils.py:9 | splitting a space-join of space-free fields recovers exactly those fields |
| PyStr.SliceWindow | main.py:31 | `s[st:st+n]` with non-negative start and count has length `max(0, min(n, len - st))` and is the run of `s` from `st` |
| PyStr.Slice | main.py:31 | Python's `s[start:stop]` with negative bounds counted from the end and both bounds clamped; its length and contents are stated by `SliceWindow` and `SliceDropEnds` |
| PyStr.SliceDropEnds | utils.py:11 | `s[1:-2]` is empty for three or fewer items, otherwise `s` without its first item and last two |
| PyStr.FormatInt | crawel.py:146 | `str(i)`: a `-` for negative values, then the decimal digits without leading zeros; `FormatIntRoundTrip` states that it reads back |
| PyStr.FormatIntRoundTrip | crawel.py:146 | `str(i)` for any integer reads back as `i`, leaving any following non-digit text untouched |
| Geometry.Signature | crawel.py:146 | the dedup key `f'{x}-{y}-{w}-{h}'` of a box; `SignatureRoundTrip` and `SignatureInjective` state that it determines the box |
| Geometry.Outline | crawel.py:290 | the rectangle drawn for a record, from its top-left corner to that corner plus its size; `ProcessURL` states where outlines are drawn and that they stay inside a bounded image |
| Geometry.SignatureRoundTrip | crawel.py:146 | the signature `f'{x}-{y}-{w}-{h}'` parses back into the box it was made from, negative coordinates included |
| Geometry.SignatureInjective | crawel.py:146-147 | two boxes have the same signature exactly when they are the same box |
| Distinct.FirstsByAppend | crawel.py:147-149 | one step of a "seen" set: an appended item survives exactly when its key has not occurred before |
| Distinct.FirstsByKeys | crawel.py:146-149 | first-occurrence dedup keeps each key once, keeps every key that occurs, and has as many items as distinct keys |
| Distinct.FirstsByFirstWins | crawel.py:146-149 | every kept item comes from the input, and each key is represented by its first occurrence |
| Distinct.FirstsByShrinks | preprocess_cdx.py:18-31 | dedup never lengthens the input; it keeps the length exactly when all keys are distinct, and then changes nothing |
| Scan.BlankIsStripEmpty | crawel.py:174 | the hover scan's blank test (None, or empty after strip) is "None or all whitespace" |
| Scan.ClassifyClickable | crawel.py:133-149 | an element is accepted exactly when its reads succeed, its label (text, or `value` when text is None/empty, no stripping) is non-empty, width and height are non-zero and, in bounded mode, it ends strictly inside the window; the record carries that label, box and kind |
| Scan.ClassifyTitled | crawel.py:164-180 | a titled element is accepted exactly when it is displayed, non-zero, in bounds, its text is None or blank, and its `title` is non-empty; the record's label is the title |
| Scan.DedupStep | crawel.py:146-149 | one turn of the scan loop extends the first-occurrence-by-box list exactly when the verdict's signature is not yet in the set |
| Scan.DedupBySignature | crawel.py:146-149 | the signature-set loop computes first-occurrence dedup by box in input order, and no two kept records share a signature |
| Scan.ScanClickable | crawel.py:127-155 | the clickable pool is the first accepted element of each box, in element order; every record is labelled, non-zero, in bounds, of kind clickable; signatures are distinct; every accepted element's signature is present |
| Scan.ScanTitled | crawel.py:157-187 | the same for the hover pool, with its own signature set and the hover acceptance rule |
| Scan.PoolFacts | crawel.py:146-149 | every pooled record is the verdict of some element, and every accepted element's box is represented in the pool |
| Scan.SkippedElementIsInvisible | crawel.py:152-154 | an element that is filtered out or raises can be removed from the input without changing the scan's output: the scan never aborts |
| Scan.RaisingElementIsDropped | crawel.py:152-154 | an element whose location, size or text read raises is dropped by both scans |
| Scan.ButtonAccepted | crawel.py:137-149 | a button with non-empty text and a 40x20 box is accepted with that text as its label, when no bound applies |
| Scan.ThreeButtons | crawel.py:127-155 | three labelled buttons at distinct positions yield three clickable records, in order |
| Scan.TitledIcon | crawel.py:167-180 | a visible 16x16 element with empty text and title "Info" yields one hover record labelled "Info" |
| Leaf.EmbeddedIffEmbeds | crawel.py:306-308 | the greedy left-to-right scan finds a pattern exactly when the pattern occurs as a scattered subsequence |
| Leaf.TagPairIsEmbedding | crawel.py:306 | a `<`, `>`, `<`, `>` in that order is the same as "<><>" occurring as a scattered subsequence |
| Leaf.IsLeafElement | crawel.py:300-313 | as written, the test is true exactly when the markup holds two tag-like tokens in order (what `<[^>]*>.*?<[^>]*>` finds with DOTALL) |
| Leaf.IsLeafElementInverted | crawel.py:310-313 | as written, markup with a child tag is called a leaf and plain text is not |
| Leaf.IsLeafIntended | crawel.py:301-305 | the corrected test, as the function's name and its docstring ("is the element a leaf node") describe it: a leaf is markup without a nested tag pair; markup without `<` is always a leaf |
| Leaf.IsLeafIntendedSeparates | crawel.py:301-305 | the corrected test calls plain text a leaf and markup with a child tag not a leaf |
| Leaf.CommentedOutIsStricter | crawel.py:314-317 | markup the commented-out test (no `<` or no `>`) calls a leaf is a leaf under the corrected test too |
| Leaf.CommentedOutRejectsLoneTag | crawel.py:314-317 | the converse fails: `<br>` is a leaf under the corrected test, but the commented-out test calls it a non-leaf, so that test is stricter |
| Capture.PathJoin | crawel.py:248 | POSIX `os.path.join`: the result ends with the second part; an absolute second part replaces the first; otherwise the first part is kept as a prefix |
| Capture.SavePath | crawel.py:245-248 | the screenshot path ends in `<save_name>.png` when a name is given and in `<hash of url>.png` otherwise |
| Capture.ScanPools | crawel.py:266-268 | the records come from the clickable scan, then from the hover scan only when hover scraping is on; each pool is labelled, non-zero, in bounds and free of repeated signatures |
| Capture.TypeFieldSplitsPools | crawel.py:266-268 | after the pools are joined, the `"type"` field (`"text"` at crawel.py:149, `"hover"` at crawel.py:180) is `"text"` exactly on the clickable records and `"hover"` exactly on the hover records after them |
| Capture.AttachPools | crawel.py:266-282 | tagging the concatenated pools keeps the clickable records first and the hover records after; every record gets the url and path; signatures stay distinct within each kind |
| Capture.ProcessURL | crawel.py:244-298 | fails exactly when navigation raises, the page never shows a `div`, or a later call it makes raises (the scroll-size script and resize only in unbounded mode, the element queries, the titled query only with hover on, the screenshot save/open/resize, the final image save); navigation's error comes before the timeout; otherwise returns the clickable pool then (if enabled) the hover pool, tagged with the url and `.png` path; the image takes the window size (bounded) or the scroll size; outlines are drawn for every record only when enabled; in bounded mode every outline ends strictly inside the image |
| Partition.BlockEndsInOrder | main.py:35-38 | the start and end indices of every block are ordered and inside the list |
| Partition.Block | main.py:35-41 | blocks before the last hold `n // k` URLs; the last holds `n - (k-1)*(n//k)` |
| Partition.Blocks | main.py:33-41 | there are exactly `k` blocks with the sizes above |
| Partition.SplitTaskFiles | main.py:28-41 | zero workers is a division-by-zero failure; a negative count writes no files; otherwise there is one block per worker |
| Partition.FlattenPrefix | main.py:34-41 | the first `m` blocks together are the first `m * (n // k)` URLs |
| Partition.BlocksCoverExactly | main.py:33-41 | concatenating the blocks in worker order gives back the window exactly, so every URL is assigned once and in order |
| Partition.MoreWorkersThanUrls | main.py:33-38 | with more workers than URLs every block but the last is empty and the last holds all URLs |
| Partition.TenOverThree | main.py:33-38 | ten URLs over three workers give blocks of 3, 3 and 4 |
| Partition.SplitWindow | main.py:31-32 | the URLs handed out are `urls[url_st:url_st+num_urls]`, of length `max(0, min(num_urls, len - url_st))` |
| Partition.TaskFileText | main.py:39-41 | the text of one task file, each URL followed by `\n`; `Worker.TaskFileRoundTrip` states that reading it back gives the block |
| Partition.SplitCoversAll | main.py:29-41 | when the window covers the list, the task files together hold every URL exactly as often as the list does, whatever the shuffle |
| Worker.ReadLines | main.py:62 | iterating a text file yields its lines, each keeping its `\n`, the last possibly without one; `ReadLinesLine` and `TaskFileRoundTrip` state what it returns |
| Worker.Step | main.py:63-75 | the events of one iteration; `StepVisits`, `StepWrites`, `StepErrors`, `StepFlushes` and `StepRestart` state what it adds to each kind of event |
| Worker.Loop | main.py:62-75 | the events of the whole loop, iteration after iteration; `LoopVisits`, `LoopWrites`, `LoopErrors`, `LoopFlushes` and `LoopRestarts` state its content |
| Worker.Run | main.py:62-76 | the loop followed by `crawler.quit()`: when no write, flush or restart raises, the loop is followed by exactly one quit, as the last event |
| Worker.ReadLinesLine | main.py:62 | iterating a text file yields a newline-free line followed by its newline as one line, then continues after it |
| Worker.TaskFileRoundTrip | main.py:41 | a task file written one URL per line reads back as those URLs, each with its newline |
| Worker.StepOnlyRaised | main.py:63-67 | a URL that raises adds its visit and one error-log entry with the raw line, and nothing else: no write, no flush, no restart |
| Worker.StepOnlyProcessed | main.py:63-75 | a successful URL adds its visit, one write per record in order, one flush, and a restart exactly when its index is a positive multiple of 100 |
| Worker.StepVisits | main.py:62-64 | every iteration visits its line once, whatever the outcome |
| Worker.StepWrites | main.py:68-69 | an iteration writes exactly the records of its URL when processing succeeded, and nothing when it raised |
| Worker.StepErrors | main.py:65-67 | an iteration logs one error with its raw line exactly when processing raised |
| Worker.StepRestart | main.py:72-75 | an iteration restarts the browser exactly when it succeeded at a positive index divisible by 100, and never quits |
| Worker.LoopVisits | main.py:62-64 | `processURL` is called once per line, in file order |
| Worker.LoopWrites | main.py:68-69 | the records written are exactly the records of the successful URLs, concatenated in URL order |
| Worker.LoopErrors | main.py:65-67 | the error log holds exactly the raw lines whose URL raised, in order |
| Worker.StepFlushes | main.py:68-70 | an iteration flushes the output file once when its URL succeeded and not at all when it raised |
| Worker.LoopFlushes | main.py:62-70 | the loop flushes exactly once per successful URL, so the number of flushes is the number of URLs that did not raise |
| Worker.LoopRestarts | main.py:72-74 | a restart follows URL `j` exactly when URL `j` succeeded and `j > 0 and j % 100 == 0`; the loop itself never quits |
| Worker.StepOrdered | main.py:63-74 | within one iteration a restart comes right after the flush, and the flush is followed only by that restart or the end of the iteration |
| Worker.LoopOrdered | main.py:62-74 | across the loop, every restart comes right after a flush, and a flush is followed only by its URL's restart, the next URL's visit, or the end: a URL's writes, flush and restart all come before the next URL is visited |
| Worker.RunViews | main.py:62-76 | the whole run combines these: visits, writes, errors and restarts as above, and `quit` once as the very last event (when no write, flush or restart raises) |
| Worker.RestartSchedule | main.py:72-74 | no restart follows any of the first 100 URLs; a failure at index 100 also prevents any restart before index 200 |
| Worker.WorkerVisitsItsBlock | main.py:62-64 | a worker reading its task file calls `processURL` on exactly the URLs of its block, in order, when the URLs are already stripped |
| LogConfig.LevelFor | main.py:12-24 | only the exact lower-case name of a level selects that level; every other string gives INFO |
| LogConfig.NameSelectsLevel | main.py:13-22 | each of 'debug', 'info', 'warning', 'error' and 'critical' selects its own level |
| LogConfig.UpperCaseFallsBack | main.py:23-24 | 'INFO' (the argument's default) and 'DEBUG' match no name and fall back to INFO |
| Cdx.UrlOfLine | utils.py:9-11 | a line yields a URL exactly when its stripped text holds at least three spaces, otherwise indexing field 3 raises; a URL never contains a space |
| Cdx.ExtractUrls | utils.py:4-14 | on success there is one URL per line, in line order, each that line's URL; otherwise the error names the first line without a fourth field, and every earlier line had one |
| Cdx.UrlOfLinePadded | utils.py:7-11 | a raw line as the file yields it, newline and other surrounding whitespace included, gives the same URL (or the same error) as the bare line |
| Cdx.UrlFromFields | utils.py:9-11 | a line of space-free fields with no padding yields its fourth field sliced `[1:-2]` |
| Cdx.QuotedUrlRoundTrip | utils.py:11 | a fourth field `"<url>",` yields exactly `<url>` |
| Cdx.ShortFieldGivesEmpty | utils.py:11 | a fourth field of three characters or fewer yields the empty URL, not an error |
| Cdx.DoubledSpaceShiftsFields | utils.py:9 | two consecutive spaces make an empty field that counts towards index 3 |
| HostDedup.GetHost | preprocess_cdx.py:10-15 | the key is never the empty hostname (it is falsy in Python), and it is either the parsed hostname or `None`; `None` arises only from a missing or empty hostname |
| HostDedup.EmptyHostnameIsNone | preprocess_cdx.py:12-15 | a missing hostname and an empty one give the same key, `None` |
| HostDedup.Group | preprocess_cdx.py:19-27 | the first loop: append each line to its key's list, adding the key on first sight; `GroupIsDictionary` states the dictionary it builds |
| HostDedup.LinesOfNonEmpty | preprocess_cdx.py:24-27 | a key has lines stored under it exactly when some line carries it |
| HostDedup.LinesOfMembers | preprocess_cdx.py:24-27 | every line stored under a key is an input line carrying that key |
| HostDedup.GroupIsDictionary | preprocess_cdx.py:19-27 | the dictionary's keys are in first-occurrence order and are exactly the keys that occur; each holds all its lines in input order |
| HostDedup.GroupsFilled | preprocess_cdx.py:24-27 | every key in the dictionary has a non-empty list |
| HostDedup.Pick | preprocess_cdx.py:29-31 | one line per dictionary key, in key order, each a member of that key's list |
| HostDedup.DistinctByHost | preprocess_cdx.py:18-31 | the output has one line per key in first-occurrence order; each is an input line carrying that key |
| HostDedup.DistinctByHostCounts | preprocess_cdx.py:18-31 | the output has one line per distinct key, so keys never repeat and all appear; it is never longer than the input, and as long exactly when all hosts are distinct |
| HostDedup.HostlessShareOneSlot | preprocess_cdx.py:12-15 | all lines without a host share the single key None: at most one output line lacks a host, and there is one exactly when some input line does |
| HostDedup.HostlessIncludesEmptyHostname | preprocess_cdx.py:10-27 | with the key built from the line's URL and its hostname, no output line is keyed by an empty host, and an output line keyed `None` exists exactly when some input line has a missing or empty hostname |

## Left out

- Browser lifecycle is left out: building, restarting and quitting the driver, navigating to the URL, the wait and the settle sleep (crawel.py:30-65, 249-255). These are Selenium process control. The wait enters only as "ready or timed out", and navigation only as "raised or not". A restart appears only as an event in the worker trace, and a failure while rebuilding the browser is not modelled.
- The unbounded-mode scroll-size query and window resize (crawel.py:258-261) are browser calls. The scroll size enters as an input, and whether they raise as `Page.fault`.
- The element queries (the XPath lists of clickable and titled elements) are browser calls. Their results enter as sequences of element records, and whether they raise as `Page.fault`.
- Hover scan version 1 (`__processHoverElements`, crawel.py:189-242) is left out. It depends on the side effects of mouse hovering and on page-source diffs. For reference, it bounds elements by a hard-coded 1920x1080 and joins the texts it collects with `'@@'`.
- `findAllMouseOverElements` (crawel.py:100-111) relies on a DevTools-only function and is left out.
- Screenshot pixels are left out: saving, opening, resizing, drawing and closing the image through PIL. Only the image size, the outline corners and whether a save, open or resize raises are kept.
- `generate_url_hash` and `parse_url_from_cdx_line` are imported from `utils` (crawel.py:12, preprocess_cdx.py:5), but utils.py defines neither, so both are function parameters.
- `urlparse(...).hostname` is library behaviour and enters as a function. Its lowercasing and port handling are not modelled.
- The `Crawler(...)` call in main.py:59-61 does not match the signature of `Crawler.__init__` (crawel.py:69). The worker therefore takes each URL's outcome as an input instead of constructing a crawler.
- `multiprocessing.Pool`, `argparse`, `tqdm`, logger formatting and the info-level log lines are concurrency, CLI and output plumbing, and are left out.
- `random.shuffle` and `random.choice` are not modelled as functions. The shuffled list is an input, and the choices are a sequence of draws.
- Worker.Run: only `processURL` sits inside the `try` (main.py:63-67). If `out_file.write` or `out_file.flush` (main.py:68-70) or `crawler.restart()` (main.py:74) raises, `worker_function` exits at once, with no error logged, no later URL visited and no `crawler.quit()`. The model has no such exit: every trace is the complete loop followed by `Quit`.
- Worker.ReadLines: Python's universal-newline translation of `\r` and `\r\n` when reading a text file is not modelled; lines end at `\n` only.
- Scan.DomElement: Selenium reports positions and sizes as numbers that may be floats. The model uses integers, so a fractional signature such as `10.5-...` is not modelled.
- HostDedup.DistinctByHost: the output is modelled as a sequence of lines, not as file text. `out_file.write(line)` writes each line verbatim, so when the input's last line has no trailing newline and is chosen for a host that is not written last, it runs into the next line written. The "one line per distinct key" of `DistinctByHostCounts` holds for the writes, not for the lines of the resulting file.
- HostDedup.DistinctByHost: reading the URL from a line (`parse_url_from_cdx_line`) and `urlparse` are total functions here. In Python either can raise (a line with fewer than four fields, a malformed URL such as `http://[x`), which aborts the whole function before the output file is opened. That abort path is not modelled.
- Partition.TaskFileText: the URLs are written through `open(..., 'w')`. Encoding and write errors are left out.

## Findings

| source | as written | input that shows it | evidently intended | confidence | as-written member | corrected member |
|---|---|---|---|---|---|---|
| crawel.py:300-313 | `isLeafElement` returns True when the inner markup matches `<[^>]*>.*?<[^>]*>`, that is, when it contains two tags | `<b>x</b>` gives True (a "leaf" with a child element); `plain text` gives False | a leaf is an element whose markup holds no nested tag, as the function's name and docstring say; the commented-out alternative at crawel.py:314-317 is a stricter variant of this (it also rejects a lone tag such as `<br>`) | not executed | Leaf.IsLeafElement (Leaf.IsLeafElementInverted) | Leaf.IsLeafIntended (Leaf.IsLeafIntendedSeparates) |

=== FILE: capture.dfy ===
/** `Crawler.processURL`: after the page is ready, run the clickable scan,
    then (when hover scraping is on) the titled scan, tag every record with
    the url and the screenshot path, resize the screenshot to the capture
    size and, when boxes are drawn, outline every record once at the end.
    Navigation, waiting and image I/O are the browser's and PIL's; the model
    keeps what they decide: whether the page became ready, which browser or
    PIL call raises, what the element queries return, the page's scroll
    size, and the outline coordinates. */
module Capture {
  import opened Wrappers
  import opened Geometry
  import opened Distinct
  import opened Scan

  /** One output line: `left-top`, `size`, `text`, `type`, `url`, `image_path`. */
  datatype Record = Record(box: Box, text: string, kind: Kind, url: string, imagePath: string)

  /** The crawler attributes processURL reads. */
  datatype Settings = Settings(
    saveDir: string,
    bounded: bool,
    width: int,
    height: int,
    drawBox: bool,
    scrapeHover: bool)

  /** The browser and PIL calls of `processURL` that can raise, in the order
      they are made: navigation (crawel.py:249), the scroll-size script and
      window resize (crawel.py:259-261), the clickable and titled element
      queries (crawel.py:266-268), saving, opening and resizing the
      screenshot (crawel.py:273-276), and saving the drawn image
      (crawel.py:293). */
  datatype Fault = Navigate | MeasurePage | QueryClickable | QueryTitled | TakeScreenshot | SaveImage

  /** Whether `processURL` makes the call `f` under settings `s`: the scroll
      size is read only in unbounded mode, the titled query runs only with
      hover scraping on. */
  predicate Reached(s: Settings, f: Fault) {
    match f
    case MeasurePage => !s.bounded
    case QueryTitled => s.scrapeHover
    case _ => true
  }

  /** What the browser reports for the page: which call, if any, raises when
      it is made, whether a `div` appeared before the wait timed out, the
      results of the clickable and titled element queries, and the body's
      scroll width and height. */
  datatype Page = Page(
    fault: Option<Fault>,
    ready: bool,
    clickable: seq<DomElement>,
    titled: seq<DomElement>,
    scrollWidth: int,
    scrollHeight: int)

  /** The screenshot file as saved: path, resized dimensions, outlines drawn. */
  datatype Screenshot = Screenshot(path: string, width: int, height: int, outlines: seq<Rect>)

  datatype Capture = Capture(records: seq<Record>, image: Screenshot)

  /** The page never showed a `div` within the wait timeout, or a browser
      or PIL call raised. */
  datatype CaptureError = WaitTimeout | CallRaised(fault: Fault)

  /** `os.path.join(a, b)` on POSIX: an absolute `b` replaces `a`; otherwise
      a `/` is inserted unless `a` is empty or already ends with one. */
  function PathJoin(a: string, b: string): (r: string)
    ensures |b| <= |r| && r[|r| - |b|..] == b
    ensures |b| > 0 && b[0] == '/' ==> r == b
    ensures (|b| == 0 || b[0] != '/') ==> |a| <= |r| && r[..|a|] == a
  {
    if |b| > 0 && b[0] == '/' then b
    else if a == "" || a[|a| - 1] == '/' then a + b
    else a + "/" + b
  }

  predicate EndsWith(s: string, t: string) {
    |t| <= |s| && s[|s| - |t|..] == t
  }

  /** A suffix of a suffix is a suffix. */
  lemma EndsWithTrans(r: string, file: string, ext: string)
    requires EndsWith(r, file) && EndsWith(file, ext)
    ensures EndsWith(r, ext)
  {
    assert r[|r| - |ext|..] == r[|r| - |file|..][|file| - |ext|..];
  }

  /** The screenshot path: `save_name`, or the url's hash when none is
      given, plus ".png", joined under the save directory. */
  function SavePath(saveDir: string, url: string, saveName: Option<string>, hashOf: string -> string): (r: string)
    ensures EndsWith(r, ".png")
    ensures saveName.Some? ==> EndsWith(r, saveName.value + ".png")
    ensures saveName.None? ==> EndsWith(r, hashOf(url) + ".png")
  {
    var name := if saveName.None? then hashOf(url) else saveName.value;
    var file := name + ".png";
    var r := PathJoin(saveDir, file);
    assert EndsWith(file, ".png") by {
      assert file[|file| - 4..] == ".png";
    }
    EndsWithTrans(r, file, ".png");
    r
  }

  function Attach(ps: seq<PageElement>, url: string, path: string): (r: seq<Record>)
  {
    seq(|ps|, k requires 0 <= k < |ps| => Record(ps[k].box, ps[k].text, ps[k].kind, url, path))
  }

  function Outlines(rs: seq<Record>): (r: seq<Rect>)
  {
    seq(|rs|, k requires 0 <= k < |rs| => Outline(rs[k].box))
  }

  /** The first-per-box clickable elements and, when hover scraping is on,
      the first-per-box titled ones, as the two scans compute them. */
  ghost function ClickablePool(s: Settings, page: Page): seq<PageElement> {
    FirstsBy(Emitted(Candidates(page.clickable, Viewport(s.bounded, s.width, s.height), Clickable)), BoxOf)
  }

  ghost function HoverPool(s: Settings, page: Page): seq<PageElement> {
    if s.scrapeHover
    then FirstsBy(Emitted(Candidates(page.titled, Viewport(s.bounded, s.width, s.height), Hover)), BoxOf)
    else []
  }

  /** The records are the clickable pool then the hover pool, in order,
      each tagged with the url and the screenshot path. */
  ghost predicate Assembled(records: seq<Record>, click: seq<PageElement>, hover: seq<PageElement>,
                            url: string, path: string)
  {
    && |records| == |click| + |hover|
    && (forall k :: 0 <= k < |click| ==>
          records[k] == Record(click[k].box, click[k].text, Clickable, url, path))
    && (forall k :: 0 <= k < |hover| ==>
          records[|click| + k] == Record(hover[k].box, hover[k].text, Hover, url, path))
  }

  /** Every record is tagged with the url and path, has a non-zero size and
      a label, and no two records of one kind share a signature. */
  ghost predicate WellFormed(records: seq<Record>, url: string, path: string) {
    && (forall k :: 0 <= k < |records| ==>
          && records[k].url == url && records[k].imagePath == path
          && records[k].box.w != 0 && records[k].box.h != 0 && records[k].text != "")
    && (forall a, b :: 0 <= a < b < |records| && records[a].kind == records[b].kind ==>
          Signature(records[a].box) != Signature(records[b].box))
  }

  /** A pool as a scan returns it: one kind, labelled, non-zero, in bounds,
      no repeated signature. */
  ghost predicate Pool(ps: seq<PageElement>, k: Kind, v: Viewport) {
    && (forall j :: 0 <= j < |ps| ==>
          && ps[j].kind == k && ps[j].text != ""
          && ps[j].box.w != 0 && ps[j].box.h != 0 && !OutOfBounds(v, ps[j].box))
    && (forall a, b :: 0 <= a < b < |ps| ==> Signature(ps[a].box) != Signature(ps[b].box))
  }

  lemma AttachPools(click: seq<PageElement>, hover: seq<PageElement>, v: Viewport, url: string, path: string)
    requires Pool(click, Clickable, v) && Pool(hover, Hover, v)
    ensures Assembled(Attach(click + hover, url, path), click, hover, url, path)
    ensures WellFormed(Attach(click + hover, url, path), url, path)
    ensures forall k :: 0 <= k < |click| + |hover| ==>
              !OutOfBounds(v, Attach(click + hover, url, path)[k].box)
  {
    var ps := click + hover;
    var records := Attach(ps, url, path);
    assert forall k :: 0 <= k < |ps| ==> records[k] == Record(ps[k].box, ps[k].text, ps[k].kind, url, path);
    forall k | 0 <= k < |hover| ensures ps[|click| + k] == hover[k] { }
    forall a, b | 0 <= a < b < |records| && records[a].kind == records[b].kind
      ensures Signature(records[a].box) != Signature(records[b].box)
    {
      if b < |click| {
        assert ps[a] == click[a] && ps[b] == click[b];
      } else if a >= |click| {
        assert ps[a] == hover[a - |click|] && ps[b] == hover[b - |click|];
      }
    }
  }

  /** The `"type"` field written with each record tells the two pools
      apart: it is `"text"` exactly on the clickable records and `"hover"`
      exactly on the hover records after them. */
  lemma TypeFieldSplitsPools(records: seq<Record>, click: seq<PageElement>, hover: seq<PageElement>,
                             url: string, path: string)
    requires Assembled(records, click, hover, url, path)
    ensures forall k :: 0 <= k < |records| ==> (TypeTag(records[k].kind) == "text" <==> k < |click|)
    ensures forall k :: 0 <= k < |records| ==> (TypeTag(records[k].kind) == "hover" <==> k >= |click|)
  {
    forall k | |click| <= k < |records| ensures records[k].kind == Hover {
      var j := k - |click|;
      assert 0 <= j < |hover|;
      assert records[|click| + j] == Record(hover[j].box, hover[j].text, Hover, url, path);
    }
  }

  /** Outlines of in-bounds boxes stay inside the viewport. */
  lemma BoundedOutlines(records: seq<Record>, outlines: seq<Rect>, v: Viewport, draw: bool)
    requires outlines == if draw then Outlines(records) else []
    requires forall k :: 0 <= k < |records| ==> !OutOfBounds(v, records[k].box)
    ensures v.bounded ==> forall k :: 0 <= k < |outlines| ==> outlines[k].right < v.width && outlines[k].bottom < v.height
  {
  }

  /** What the tail of `processURL` guarantees once both pools are in hand:
      the records are the pools tagged in order, well formed, and outlined
      inside the viewport. */
  lemma CaptureFacts(click: seq<PageElement>, hover: seq<PageElement>, v: Viewport, url: string, path: string,
                     draw: bool, records: seq<Record>, outlines: seq<Rect>)
    requires Pool(click, Clickable, v) && Pool(hover, Hover, v)
    requires records == Attach(click + hover, url, path)
    requires outlines == if draw then Outlines(records) else []
    ensures Assembled(records, click, hover, url, path)
    ensures WellFormed(records, url, path)
    ensures v.bounded ==> forall k :: 0 <= k < |outlines| ==> outlines[k].right < v.width && outlines[k].bottom < v.height
  {
    AttachPools(click, hover, v, url, path);
    BoundedOutlines(records, outlines, v, draw);
  }

  /** The two scans `processURL` runs: the clickable scan, then the hover
      scan when hover scraping is on. */
  method ScanPools(s: Settings, page: Page) returns (click: seq<PageElement>, hover: seq<PageElement>)
    ensures click == ClickablePool(s, page) && hover == HoverPool(s, page)
    ensures Pool(click, Clickable, Viewport(s.bounded, s.width, s.height))
    ensures Pool(hover, Hover, Viewport(s.bounded, s.width, s.height))
  {
    var v := Viewport(s.bounded, s.width, s.height);
    click := ScanClickable(page.clickable, v);
    hover := [];
    if s.scrapeHover {
      hover := ScanTitled(page.titled, v);
    }
  }

  /** crawel.py `processURL`. Navigation that raises, a page that never
      becomes ready, or a later browser or PIL call that raises ends it with
      that error; any other outcome saves a screenshot, even with no records.
      The records are the clickable pool followed by the hover pool, each
      deduplicated on its own (a box may appear once in each), all tagged
      with the url and the `.png` path; in bounded mode every outline ends
      strictly inside the resized image. */
  method ProcessURL(url: string, saveName: Option<string>, hashOf: string -> string, s: Settings, page: Page)
    returns (r: Result<Capture, CaptureError>)
    ensures r.Failure? <==> !page.ready || (page.fault.Some? && Reached(s, page.fault.value))
    ensures page.fault == Some(Navigate) ==> r == Failure(CallRaised(Navigate))
    ensures page.fault != Some(Navigate) && !page.ready ==> r == Failure(WaitTimeout)
    ensures r.Failure? && r.error.CallRaised? ==> page.fault == Some(r.error.fault)
    ensures r.Success? ==> r.value.image.path == SavePath(s.saveDir, url, saveName, hashOf)
    ensures r.Success? ==> Assembled(r.value.records, ClickablePool(s, page), HoverPool(s, page), url, r.value.image.path)
    ensures r.Success? ==> WellFormed(r.value.records, url, r.value.image.path)
    ensures r.Success? && s.bounded ==> r.value.image.width == s.width && r.value.image.height == s.height
    ensures r.Success? && !s.bounded ==>
              r.value.image.width == page.scrollWidth && r.value.image.height == page.scrollHeight
    ensures r.Success? ==> r.value.image.outlines == if s.drawBox then Outlines(r.value.records) else []
    ensures r.Success? && s.bounded ==> forall k :: 0 <= k < |r.value.image.outlines| ==>
              && r.value.image.outlines[k].right < r.value.image.width
              && r.value.image.outlines[k].bottom < r.value.image.height
  {
    var path := SavePath(s.saveDir, url, saveName, hashOf);
    if page.fault == Some(Navigate) {
      return Failure(CallRaised(Navigate));
    }
    if !page.ready {
      return Failure(WaitTimeout);
    }
    // After the wait, the calls that follow (the scroll-size script and
    // resize, the element queries, the screenshot and the final save) are
    // pure to the model, so the one that raises may be decided up front.
    if page.fault.Some? && Reached(s, page.fault.value) {
      return Failure(CallRaised(page.fault.value));
    }
    var v := Viewport(s.bounded, s.width, s.height);
    var width, height := page.scrollWidth, page.scrollHeight;
    if s.bounded {
      width, height := s.width, s.height;
    }
    var results, hover := ScanPools(s, page);
    var records := Attach(results + hover, url, path);
    var outlines := if s.drawBox then Outlines(records) else [];
    CaptureFacts(results, hover, v, url, path, s.drawBox, records, outlines);
    return Success(Capture(records, Screenshot(path, width, height, outlines)));
  }
}

=== FILE: cdx.dfy ===
/** `extract_urls_from_cdx`: every line of a CDX index is stripped, split on
    single spaces, and its fourth field, minus its first character and its
    last two, is taken as the URL. A line with fewer than four fields
    raises and ends the whole extraction. */
module Cdx {
  import opened Wrappers
  import opened PyStr

  /** The `IndexError` a short line raises, with the 0-based line number. */
  datatype CdxError = IndexError(lineNo: nat)

  /** The URL of one line: `line.strip().split(' ')[3][1:-2]`, or `None`
      where the indexing raises. The line has a fourth field exactly when its
      stripped text holds at least three spaces. */
  function UrlOfLine(line: string): (r: Option<string>)
    ensures r.None? <==> CountChar(Strip(line), ' ') < 3
    ensures r.Some? ==> ' ' !in r.value
  {
    var fields := Split(Strip(line), ' ');
    if |fields| < 4 then None
    else
      SliceMembers(fields[3], 1, -2, ' ');
      Some(Slice(fields[3], 1, -2))
  }

  /** A raw line as the file yields it, with its newline and any other
      surrounding whitespace, gives the same URL as the bare line. */
  lemma UrlOfLinePadded(a: string, line: string, b: string)
    requires AllSpace(a) && AllSpace(b)
    ensures UrlOfLine(a + line + b) == UrlOfLine(line)
  {
    StripAbsorbsPadding(a, line, b);
  }

  /** `ys` holds the values `f` gives the first `n` elements of `xs`, none
      of which is `None`. */
  ghost predicate Collected<A, B>(f: A -> Option<B>, xs: seq<A>, ys: seq<B>, n: nat)
    requires n <= |xs|
  {
    |ys| == n && forall j :: 0 <= j < n ==> f(xs[j]).Some? && ys[j] == f(xs[j]).value
  }

  lemma CollectedStep<A, B>(f: A -> Option<B>, xs: seq<A>, ys: seq<B>, n: nat)
    requires n < |xs| && Collected(f, xs, ys, n) && f(xs[n]).Some?
    ensures Collected(f, xs, ys + [f(xs[n]).value], n + 1)
  {
    var ys' := ys + [f(xs[n]).value];
    assert forall j :: 0 <= j < n ==> ys'[j] == ys[j];
  }

  /** The whole file: one URL per line in line order, or the error of the
      first line that has no fourth field. */
  method ExtractUrls(lines: seq<string>) returns (r: Result<seq<string>, CdxError>)
    ensures r.Success? <==> forall i :: 0 <= i < |lines| ==> UrlOfLine(lines[i]).Some?
    ensures r.Success? ==> |r.value| == |lines|
    ensures r.Success? ==> forall i :: 0 <= i < |lines| ==> r.value[i] == UrlOfLine(lines[i]).value
    ensures r.Failure? ==> r.error.lineNo < |lines| && UrlOfLine(lines[r.error.lineNo]).None?
    ensures r.Failure? ==> forall i :: 0 <= i < r.error.lineNo ==> UrlOfLine(lines[i]).Some?
  {
    var urls: seq<string> := [];
    var i := 0;
    while i < |lines|
      invariant 0 <= i <= |lines|
      invariant Collected(UrlOfLine, lines, urls, i)
    {
      var u := UrlOfLine(lines[i]);
      if u.None? {
        r := Failure(IndexError(i));
        return;
      }
      CollectedStep(UrlOfLine, lines, urls, i);
      urls, i := urls + [u.value], i + 1;
    }
    r := Success(urls);
  }

  lemma StrippedIsFixed(s: string)
    requires Stripped(s)
    ensures Strip(s) == s
  {
    StripRemovesPadding("", s, "");
    assert "" + s + "" == s;
  }

  /** A line made of space-free fields, with no padding at either end, gives
      back its fourth field sliced `[1:-2]`, whatever the other fields are;
      empty fields from doubled spaces count as fields. */
  lemma UrlFromFields(fields: seq<string>)
    requires |fields| >= 4
    requires forall k :: 0 <= k < |fields| ==> ' ' !in fields[k]
    requires Stripped(Join(fields, ' '))
    ensures UrlOfLine(Join(fields, ' ')) == Some(Slice(fields[3], 1, -2))
  {
    StrippedIsFixed(Join(fields, ' '));
    SplitJoin(fields, ' ');
  }

  /** The field layout `UrlOfLine` is built for: a fourth field holding the
      URL in double quotes followed by a comma comes back as the bare URL. */
  lemma QuotedUrlRoundTrip(fields: seq<string>, u: string)
    requires |fields| >= 4 && fields[3] == "\"" + u + "\","
    requires forall k :: 0 <= k < |fields| ==> ' ' !in fields[k]
    requires Stripped(Join(fields, ' '))
    ensures UrlOfLine(Join(fields, ' ')) == Some(u)
  {
    UrlFromFields(fields);
    SliceDropEnds(fields[3]);
    assert fields[3][1..|fields[3]| - 2] == u;
  }

  /** A fourth field of three characters or fewer yields the empty URL
      rather than an error. */
  lemma ShortFieldGivesEmpty(fields: seq<string>)
    requires |fields| >= 4 && |fields[3]| <= 3
    requires forall k :: 0 <= k < |fields| ==> ' ' !in fields[k]
    requires Stripped(Join(fields, ' '))
    ensures UrlOfLine(Join(fields, ' ')) == Some("")
  {
    UrlFromFields(fields);
    SliceDropEnds(fields[3]);
  }

  /** Two spaces in a row make an empty field, so in `a  b f` the URL is
      cut from `f`, the fourth field, and not from whatever follows. */
  lemma DoubledSpaceShiftsFields(a: string, b: string, f: string)
    requires |a| > 0 && !IsSpace(a[0]) && |f| > 0 && !IsSpace(f[|f| - 1])
    requires ' ' !in a && ' ' !in b && ' ' !in f
    ensures UrlOfLine(a + "  " + b + " " + f) == Some(Slice(f, 1, -2))
  {
    var fields := [a, "", b, f];
    assert Join(fields, ' ') == a + "  " + b + " " + f by {
      assert Join([f], ' ') == f;
      assert Join([b, f], ' ') == b + " " + f;
      assert Join(["", b, f], ' ') == " " + b + " " + f;
    }
    UrlFromFields(fields);
  }
}

=== FILE: distinct.dfy ===
/** First-occurrence deduplication by a key, the reference behaviour behind
    both the crawler's geometry-signature sets and the per-host grouping of
    CDX lines: walk the input in order and keep an item exactly when no
    earlier item had the same key. */
module Distinct {

  /** No item before index `i` shares the key of `s[i]`. */
  ghost predicate FirstOfKey<T, K>(s: seq<T>, key: T -> K, i: int)
    requires 0 <= i < |s|
  {
    forall j :: 0 <= j < i ==> key(s[j]) != key(s[i])
  }

  /** The items of `s` that are the first of their key, in input order. */
  ghost function FirstsBy<T, K>(s: seq<T>, key: T -> K): seq<T> {
    if |s| == 0 then []
    else FirstsBy(s[..|s| - 1], key) + (if FirstOfKey(s, key, |s| - 1) then [s[|s| - 1]] else [])
  }

  ghost function KeySet<T, K>(s: seq<T>, key: T -> K): set<K> {
    set i | 0 <= i < |s| :: key(s[i])
  }

  ghost predicate KeysDistinct<T, K>(s: seq<T>, key: T -> K) {
    forall a, b :: 0 <= a < b < |s| ==> key(s[a]) != key(s[b])
  }

  lemma KeySetAppend<T, K>(s: seq<T>, x: T, key: T -> K)
    ensures KeySet(s + [x], key) == KeySet(s, key) + {key(x)}
  {
    var t := s + [x];
    assert forall i :: 0 <= i < |s| ==> t[i] == s[i];
    assert t[|s|] == x;
  }

  /** One step of the reference: an appended item survives exactly when its
      key is new. This is what a running "seen" set decides. */
  lemma FirstsByAppend<T, K>(s: seq<T>, x: T, key: T -> K)
    ensures FirstsBy(s + [x], key)
            == FirstsBy(s, key) + (if key(x) in KeySet(s, key) then [] else [x])
  {
    var t := s + [x];
    assert t[..|t| - 1] == s;
    if key(x) in KeySet(s, key) {
      var j :| 0 <= j < |s| && key(s[j]) == key(x);
      assert t[j] == s[j];
      assert !FirstOfKey(t, key, |t| - 1);
    } else {
      forall j | 0 <= j < |s|
        ensures key(t[j]) != key(x)
      {
        assert t[j] == s[j];
        assert key(s[j]) in KeySet(s, key);
      }
      assert FirstOfKey(t, key, |t| - 1);
    }
  }

  /** The survivors carry every key of the input, each exactly once. */
  lemma {:induction false} FirstsByKeys<T, K>(s: seq<T>, key: T -> K)
    ensures KeysDistinct(FirstsBy(s, key), key)
    ensures KeySet(FirstsBy(s, key), key) == KeySet(s, key)
    ensures |FirstsBy(s, key)| == |KeySet(s, key)|
    decreases |s|
  {
    if |s| > 0 {
      var init, x := s[..|s| - 1], s[|s| - 1];
      assert s == init + [x];
      FirstsByKeys(init, key);
      FirstsByAppend(init, x, key);
      KeySetAppend(init, x, key);
      var p := FirstsBy(init, key);
      if key(x) in KeySet(init, key) {
        assert FirstsBy(s, key) == p;
        assert KeySet(s, key) == KeySet(init, key);
      } else {
        KeySetAppend(p, x, key);
        var r := p + [x];
        assert FirstsBy(s, key) == r;
        forall a, b | 0 <= a < b < |r|
          ensures key(r[a]) != key(r[b])
        {
          if b == |p| {
            assert key(r[a]) in KeySet(p, key);
          } else {
            assert r[a] == p[a] && r[b] == p[b];
          }
        }
        assert KeySet(r, key) == KeySet(s, key);
        assert |KeySet(s, key)| == |KeySet(init, key)| + 1;
      }
    }
  }

  /** Every survivor is an input item, and each key is represented by the
      FIRST input item carrying it. */
  lemma {:induction false} FirstsByFirstWins<T, K>(s: seq<T>, key: T -> K)
    ensures forall k :: 0 <= k < |FirstsBy(s, key)| ==> FirstsBy(s, key)[k] in s
    ensures forall k, i ::
              (0 <= k < |FirstsBy(s, key)| && 0 <= i < |s| && FirstOfKey(s, key, i)
               && key(s[i]) == key(FirstsBy(s, key)[k])) ==> FirstsBy(s, key)[k] == s[i]
    decreases |s|
  {
    if |s| > 0 {
      var init, x := s[..|s| - 1], s[|s| - 1];
      assert s == init + [x];
      FirstsByFirstWins(init, key);
      FirstsByKeys(init, key);
      FirstsByAppend(init, x, key);
      var p := FirstsBy(init, key);
      var r := FirstsBy(s, key);
      forall k, i | 0 <= k < |r| && 0 <= i < |s| && FirstOfKey(s, key, i) && key(s[i]) == key(r[k])
        ensures r[k] == s[i]
      {
        if k < |p| {
          assert r[k] == p[k];
          assert key(p[k]) in KeySet(p, key);
          if i < |s| - 1 {
            assert FirstOfKey(init, key, i) by {
              forall j | 0 <= j < i ensures key(init[j]) != key(init[i]) {
                assert init[j] == s[j] && init[i] == s[i];
              }
            }
            assert s[i] == init[i];
          }
        } else {
          assert r[k] == x;
        }
      }
    }
  }

  /** Nothing is dropped exactly when the keys are already distinct, and
      otherwise the output is strictly shorter. */
  lemma {:induction false} FirstsByShrinks<T, K>(s: seq<T>, key: T -> K)
    ensures |FirstsBy(s, key)| <= |s|
    ensures |FirstsBy(s, key)| == |s| <==> KeysDistinct(s, key)
    ensures KeysDistinct(s, key) ==> FirstsBy(s, key) == s
    decreases |s|
  {
    if |s| > 0 {
      var init, x := s[..|s| - 1], s[|s| - 1];
      assert s == init + [x];
      FirstsByShrinks(init, key);
      FirstsByAppend(init, x, key);
      if KeysDistinct(s, key) {
        assert KeysDistinct(init, key) by {
          forall a, b | 0 <= a < b < |init| ensures key(init[a]) != key(init[b]) {
            assert init[a] == s[a] && init[b] == s[b];
          }
        }
        assert key(x) !in KeySet(init, key) by {
          forall j | 0 <= j < |init| ensures key(init[j]) != key(x) {
            assert init[j] == s[j];
          }
        }
      }
    }
  }
}

=== FILE: geometry.dfy ===
/** Element geometry: the box a scan reads off an element, the string
    signature `x-y-w-h` both scans deduplicate on, and the outline the
    annotator draws. */
module Geometry {
  import opened Wrappers
  import opened PyStr

  /** Left-top corner (x, y) and size (w, h), in page pixels. */
  datatype Box = Box(x: int, y: int, w: int, h: int)

  /** The dedup key `f'{x}-{y}-{w}-{h}'`. */
  function Signature(b: Box): string {
    FormatInt(b.x) + "-" + FormatInt(b.y) + "-" + FormatInt(b.w) + "-" + FormatInt(b.h)
  }

  /** An integer followed by the `-` separator, returning what comes after. */
  function ParseField(s: string): Option<(int, string)> {
    match ParseInt(s)
    case None => None
    case Some((v, rest)) =>
      if |rest| > 0 && rest[0] == '-' then Some((v, rest[1..])) else None
  }

  /** Reads a signature back into the box it names; fails on anything else. */
  function ParseSignature(s: string): Option<Box> {
    var (x, r1) :- ParseField(s);
    var (y, r2) :- ParseField(r1);
    var (w, r3) :- ParseField(r2);
    var (h, r4) :- ParseInt(r3);
    if r4 == "" then Some(Box(x, y, w, h)) else None
  }

  lemma ParseFieldOf(i: int, rest: string)
    ensures ParseField(FormatInt(i) + "-" + rest) == Some((i, rest))
  {
    var f, t := FormatInt(i), "-" + rest;
    assert f + "-" + rest == f + t;
    FormatIntRoundTrip(i, t);
    assert t[0] == '-' && t[1..] == rest;
  }

  /** The signature is a faithful encoding of the box: it parses back. */
  lemma SignatureRoundTrip(b: Box)
    ensures ParseSignature(Signature(b)) == Some(b)
  {
    var fx, fy, fw, fh := FormatInt(b.x), FormatInt(b.y), FormatInt(b.w), FormatInt(b.h);
    var r3 := fh;
    var r2 := fw + "-" + r3;
    var r1 := fy + "-" + r2;
    assert Signature(b) == fx + "-" + r1;
    ParseFieldOf(b.x, r1);
    ParseFieldOf(b.y, r2);
    ParseFieldOf(b.w, r3);
    FormatIntRoundTrip(b.h, "");
    assert fh + "" == fh;
  }

  /** Two boxes share a signature exactly when they are the same box, so the
      string-keyed "seen" sets deduplicate by geometry. */
  lemma SignatureInjective(a: Box, b: Box)
    ensures Signature(a) == Signature(b) <==> a == b
  {
    SignatureRoundTrip(a);
    SignatureRoundTrip(b);
  }

  /** The outline PIL draws for a box: from (x, y) to (x + w, y + h). */
  datatype Rect = Rect(left: int, top: int, right: int, bottom: int)

  function Outline(b: Box): Rect {
    Rect(b.x, b.y, b.x + b.w, b.y + b.h)
  }
}

=== FILE: hostdedup.dfy ===
/** `distinct_urls_from_cdx`: group the lines of a CDX file by the host of
    their URL in an insertion-ordered dictionary, then write one randomly
    chosen line per host, hosts in the order they were first seen. Lines
    whose URL has no host all share the key `None`. Reading the URL from a
    line and parsing its hostname are library calls and enter as
    functions; the random choice enters as a sequence of draws. */
module HostDedup {
  import opened Wrappers
  import opened Distinct

  /** `get_host_from_url`: the parsed hostname, or `None` when the parser
      gives none or an empty one. */
  function GetHost(hostname: Option<string>): (k: Option<string>)
    ensures k != Some("")
    ensures k == None || k == hostname
    ensures k.None? ==> hostname == None || hostname == Some("")
  {
    if hostname.Some? && hostname.value != "" then hostname else None
  }

  /** A missing hostname and an empty one are the same key. */
  lemma EmptyHostnameIsNone()
    ensures GetHost(Some("")) == GetHost(None) == None
  {
  }

  /** The dictionary key of a line: the host of the URL read from it. */
  function LineKey(urlOf: string -> string, hostnameOf: string -> Option<string>): string -> Option<string> {
    line => GetHost(hostnameOf(urlOf(line)))
  }

  /** The dictionary after the first loop: its keys in insertion order, and
      the list of lines stored under each. */
  datatype Groups = Groups(order: seq<Option<string>>, members: map<Option<string>, seq<string>>)

  /** The first loop of `distinct_urls_from_cdx`, one line at a time. */
  function Group(lines: seq<string>, key: string -> Option<string>): Groups {
    if |lines| == 0 then Groups([], map[])
    else
      var g := Group(lines[..|lines| - 1], key);
      var line := lines[|lines| - 1];
      var h := key(line);
      if h in g.members then Groups(g.order, g.members[h := g.members[h] + [line]])
      else Groups(g.order + [h], g.members[h := [line]])
  }

  /** Reference: the lines with key `h`, in input order. */
  function LinesOf(lines: seq<string>, key: string -> Option<string>, h: Option<string>): seq<string> {
    if |lines| == 0 then []
    else LinesOf(lines[..|lines| - 1], key, h) + (if key(lines[|lines| - 1]) == h then [lines[|lines| - 1]] else [])
  }

  /** Reference: the keys in order of first occurrence. */
  ghost function HostOrder(lines: seq<string>, key: string -> Option<string>): (r: seq<Option<string>>)
    ensures |r| == |FirstsBy(lines, key)|
    ensures forall k :: 0 <= k < |r| ==> r[k] == key(FirstsBy(lines, key)[k])
  {
    var f := FirstsBy(lines, key);
    seq(|f|, k requires 0 <= k < |f| => key(f[k]))
  }

  lemma {:induction false} LinesOfNonEmpty(lines: seq<string>, key: string -> Option<string>, h: Option<string>)
    ensures h in KeySet(lines, key) <==> |LinesOf(lines, key, h)| > 0
    decreases |lines|
  {
    if |lines| > 0 {
      var n := |lines| - 1;
      LinesOfNonEmpty(lines[..n], key, h);
      KeySetAppend(lines[..n], lines[n], key);
      assert lines[..n] + [lines[n]] == lines;
    }
  }

  lemma {:induction false} LinesOfMembers(lines: seq<string>, key: string -> Option<string>, h: Option<string>, j: nat)
    requires j < |LinesOf(lines, key, h)|
    ensures LinesOf(lines, key, h)[j] in lines && key(LinesOf(lines, key, h)[j]) == h
    decreases |lines|
  {
    var n := |lines| - 1;
    var rest := LinesOf(lines[..n], key, h);
    if j < |rest| {
      LinesOfMembers(lines[..n], key, h, j);
      assert lines[..n][..] <= lines;
    }
  }

  /** The dictionary the first loop builds: keys in first-occurrence order,
      exactly the keys that occur, and under each key all of its lines in
      input order. */
  lemma {:induction false} GroupIsDictionary(lines: seq<string>, key: string -> Option<string>)
    ensures Group(lines, key).order == HostOrder(lines, key)
    ensures Group(lines, key).members.Keys == KeySet(lines, key)
    ensures forall h :: h in Group(lines, key).members ==> Group(lines, key).members[h] == LinesOf(lines, key, h)
    decreases |lines|
  {
    if |lines| > 0 {
      var n := |lines| - 1;
      var init, line := lines[..n], lines[n];
      assert lines == init + [line];
      GroupIsDictionary(init, key);
      KeySetAppend(init, line, key);
      FirstsByAppend(init, line, key);
      var g, g' := Group(init, key), Group(lines, key);
      var h := key(line);
      LinesOfNonEmpty(init, key, h);
      if h in g.members {
        assert g' == Groups(g.order, g.members[h := g.members[h] + [line]]);
        assert h in KeySet(init, key);
        assert HostOrder(lines, key) == HostOrder(init, key);
      } else {
        assert g' == Groups(g.order + [h], g.members[h := [line]]);
        assert h !in KeySet(init, key);
        assert HostOrder(lines, key) == HostOrder(init, key) + [h];
      }
      forall h' | h' in g'.members
        ensures g'.members[h'] == LinesOf(lines, key, h')
      {
        assert LinesOf(lines, key, h') == LinesOf(init, key, h') + (if h == h' then [line] else []);
        if h' != h {
          assert g'.members[h'] == g.members[h'];
        } else if h !in g.members {
          assert LinesOf(init, key, h) == [];
        }
      }
    }
  }

  /** Every key of the dictionary, in order, has a non-empty group. */
  lemma GroupsFilled(lines: seq<string>, key: string -> Option<string>)
    ensures Filled(Group(lines, key))
  {
    var g := Group(lines, key);
    var f := FirstsBy(lines, key);
    GroupIsDictionary(lines, key);
    FirstsByKeys(lines, key);
    forall k | 0 <= k < |g.order| ensures g.order[k] in g.members && |g.members[g.order[k]]| > 0 {
      assert g.order[k] == key(f[k]);
      assert key(f[k]) in KeySet(f, key);
      LinesOfNonEmpty(lines, key, g.order[k]);
    }
  }

  /** A dictionary whose every listed key has a non-empty group. */
  predicate Filled(g: Groups) {
    forall k :: 0 <= k < |g.order| ==> g.order[k] in g.members && |g.members[g.order[k]]| > 0
  }

  /** The second loop: for the `k`-th key, the line `random.choice` picks
      from its group, namely the one at `draw(k)` modulo the group size. */
  function Pick(g: Groups, draw: nat -> nat): (out: seq<string>)
    requires Filled(g)
    ensures |out| == |g.order|
    ensures forall k :: 0 <= k < |out| ==> out[k] in g.members[g.order[k]]
  {
    seq(|g.order|, k requires 0 <= k < |g.order| =>
      var grp := g.members[g.order[k]];
      grp[draw(k) % |grp|])
  }

  /** `distinct_urls_from_cdx`: one line per distinct key (`None` is one
      key), each an input line carrying that key, keys in first-occurrence
      order. */
  function DistinctByHost(lines: seq<string>, key: string -> Option<string>, draw: nat -> nat): (out: seq<string>)
    ensures |out| == |HostOrder(lines, key)|
    ensures forall k :: 0 <= k < |out| ==> out[k] in lines && key(out[k]) == HostOrder(lines, key)[k]
  {
    var g := Group(lines, key);
    GroupsFilled(lines, key);
    GroupIsDictionary(lines, key);
    FirstsByKeys(lines, key);
    var out := Pick(g, draw);
    forall k | 0 <= k < |out| ensures out[k] in lines && key(out[k]) == g.order[k] {
      var grp := g.members[g.order[k]];
      var j :| 0 <= j < |grp| && grp[j] == out[k];
      LinesOfMembers(lines, key, g.order[k], j);
    }
    out
  }

  /** The output keys are exactly the input keys, each once; the output is
      never longer than the input, and as long exactly when no two input
      lines share a key. */
  lemma DistinctByHostCounts(lines: seq<string>, key: string -> Option<string>, draw: nat -> nat)
    ensures |DistinctByHost(lines, key, draw)| == |KeySet(lines, key)|
    ensures KeysDistinct(DistinctByHost(lines, key, draw), key)
    ensures KeySet(DistinctByHost(lines, key, draw), key) == KeySet(lines, key)
    ensures |DistinctByHost(lines, key, draw)| <= |lines|
    ensures |DistinctByHost(lines, key, draw)| == |lines| <==> KeysDistinct(lines, key)
  {
    var out, f := DistinctByHost(lines, key, draw), FirstsBy(lines, key);
    FirstsByKeys(lines, key);
    FirstsByShrinks(lines, key);
    assert forall k :: 0 <= k < |out| ==> key(out[k]) == key(f[k]);
    assert KeySet(out, key) == KeySet(f, key) by {
      forall h | h in KeySet(f, key) ensures h in KeySet(out, key) {
        var i :| 0 <= i < |f| && key(f[i]) == h;
        assert key(out[i]) == h;
      }
    }
  }

  /** All lines without a host compete for a single output slot: at most
      one output line has key `None`, and there is one exactly when some
      input line has no host. */
  lemma HostlessShareOneSlot(lines: seq<string>, key: string -> Option<string>, draw: nat -> nat)
    ensures forall a, b :: 0 <= a < b < |DistinctByHost(lines, key, draw)| ==>
              !(key(DistinctByHost(lines, key, draw)[a]).None? && key(DistinctByHost(lines, key, draw)[b]).None?)
    ensures (exists i :: 0 <= i < |lines| && key(lines[i]).None?) <==>
              (exists k :: 0 <= k < |DistinctByHost(lines, key, draw)| && key(DistinctByHost(lines, key, draw)[k]).None?)
  {
    var out := DistinctByHost(lines, key, draw);
    DistinctByHostCounts(lines, key, draw);
    if exists i :: 0 <= i < |lines| && key(lines[i]).None? {
      var i :| 0 <= i < |lines| && key(lines[i]).None?;
      assert None in KeySet(lines, key);
      assert None in KeySet(out, key);
    }
    if exists k :: 0 <= k < |out| && key(out[k]).None? {
      var k :| 0 <= k < |out| && key(out[k]).None?;
      assert None in KeySet(out, key);
      assert None in KeySet(lines, key);
    }
  }

  /** With the key of the source (the host of each line's URL), a line whose
      URL has no hostname and one whose hostname is empty compete for the
      same single output slot, and no output line is keyed by an empty
      host. */
  lemma HostlessIncludesEmptyHostname(lines: seq<string>, urlOf: string -> string,
                                      hostnameOf: string -> Option<string>, draw: nat -> nat)
    ensures forall k :: 0 <= k < |DistinctByHost(lines, LineKey(urlOf, hostnameOf), draw)| ==>
              LineKey(urlOf, hostnameOf)(DistinctByHost(lines, LineKey(urlOf, hostnameOf), draw)[k]) != Some("")
    ensures (exists i :: 0 <= i < |lines| && hostnameOf(urlOf(lines[i])) in [None, Some("")]) <==>
              (exists k :: 0 <= k < |DistinctByHost(lines, LineKey(urlOf, hostnameOf), draw)| &&
                 LineKey(urlOf, hostnameOf)(DistinctByHost(lines, LineKey(urlOf, hostnameOf), draw)[k]).None?)
  {
    var key := LineKey(urlOf, hostnameOf);
    HostlessShareOneSlot(lines, key, draw);
    assert forall i :: 0 <= i < |lines| ==>
      (key(lines[i]).None? <==> hostnameOf(urlOf(lines[i])) in [None, Some("")]);
  }
}

=== FILE: leaf.dfy ===
/** `Crawler.isLeafElement`: a regular-expression test on an element's
    `innerHTML`. The pattern `<[^>]*>.*?<[^>]*>` (searched with DOTALL)
    matches exactly when the markup holds a `<`, then a `>`, then a `<`,
    then a `>`, in that order, so the search is decided by a greedy
    left-to-right subsequence scan for "<><>". */
module Leaf {

  /** Greedy check that `p` occurs in `s` as a (scattered) subsequence. */
  function Embedded(p: string, s: string): bool
    decreases |s|
  {
    if |p| == 0 then true
    else if |s| == 0 then false
    else if s[0] == p[0] then Embedded(p[1..], s[1..])
    else Embedded(p, s[1..])
  }

  /** `idx` places the characters of `p` at strictly increasing positions of `s`. */
  ghost predicate Placement(p: string, s: string, idx: seq<int>) {
    && |idx| == |p|
    && (forall j :: 0 <= j < |idx| ==> 0 <= idx[j] < |s| && s[idx[j]] == p[j])
    && (forall j :: 0 < j < |idx| ==> idx[j - 1] < idx[j])
  }

  ghost predicate Embeds(p: string, s: string) {
    exists idx :: Placement(p, s, idx)
  }

  /** Two tag-like tokens in order: a `<` ... `>` followed later by `<` ... `>`. */
  ghost predicate HasTagPair(s: string) {
    exists i, k, l, m :: 0 <= i < k < l < m < |s|
      && s[i] == '<' && s[k] == '>' && s[l] == '<' && s[m] == '>'
  }

  function Shift(idx: seq<int>, d: int): (r: seq<int>)
  {
    seq(|idx|, j requires 0 <= j < |idx| => idx[j] + d)
  }

  lemma PlaceHead(p: string, s: string, idx': seq<int>)
    requires |p| > 0 && |s| > 0 && s[0] == p[0]
    requires Placement(p[1..], s[1..], idx')
    ensures Placement(p, s, [0] + Shift(idx', 1))
  {
    var idx := [0] + Shift(idx', 1);
    forall j | 0 < j < |idx| ensures 0 <= idx[j] < |s| && s[idx[j]] == p[j] {
      assert idx[j] == idx'[j - 1] + 1;
      assert s[idx[j]] == s[1..][idx'[j - 1]];
    }
  }

  lemma PlaceAfterHead(p: string, s: string, idx': seq<int>)
    requires |s| > 0
    requires Placement(p, s[1..], idx')
    ensures Placement(p, s, Shift(idx', 1))
  {
    var idx := Shift(idx', 1);
    forall j | 0 <= j < |idx| ensures 0 <= idx[j] < |s| && s[idx[j]] == p[j] {
      assert s[idx[j]] == s[1..][idx'[j]];
    }
  }

  lemma UnplaceHead(p: string, s: string, idx: seq<int>)
    requires |p| > 0 && |s| > 0
    requires Placement(p, s, idx)
    ensures Placement(p[1..], s[1..], Shift(idx[1..], -1))
  {
    var idx' := Shift(idx[1..], -1);
    forall j | 0 <= j < |idx'| ensures 0 <= idx'[j] < |s[1..]| && s[1..][idx'[j]] == p[1..][j] {
      LaterPlacementsGrow(p, s, idx, j + 1);
    }
  }

  lemma UnplaceUnused(p: string, s: string, idx: seq<int>)
    requires |p| > 0 && |s| > 0 && s[0] != p[0]
    requires Placement(p, s, idx)
    ensures Placement(p, s[1..], Shift(idx, -1))
  {
    assert idx[0] != 0;
    var idx' := Shift(idx, -1);
    forall j | 0 <= j < |idx'| ensures 0 <= idx'[j] < |s[1..]| && s[1..][idx'[j]] == p[j] {
      LaterPlacementsGrow(p, s, idx, j);
    }
  }

  /** A non-empty pattern has no placement in the empty string. */
  lemma PlacementNeedsText(p: string, s: string, idx: seq<int>)
    requires |p| > 0
    ensures Placement(p, s, idx) ==> |s| > 0
  {
    if Placement(p, s, idx) {
      assert 0 <= idx[0] < |s|;
    }
  }

  /** The greedy scan finds the pattern exactly when some placement exists. */
  lemma {:induction false} EmbeddedIffEmbeds(p: string, s: string)
    ensures Embedded(p, s) <==> Embeds(p, s)
    decreases |s|
  {
    if |p| == 0 {
      assert Placement(p, s, []);
    } else if |s| == 0 {
      forall idx ensures !Placement(p, s, idx) {
        PlacementNeedsText(p, s, idx);
      }
    } else if s[0] == p[0] {
      EmbeddedIffEmbeds(p[1..], s[1..]);
      if Embedded(p, s) {
        var idx' :| Placement(p[1..], s[1..], idx');
        PlaceHead(p, s, idx');
      }
      if Embeds(p, s) {
        var idx :| Placement(p, s, idx);
        UnplaceHead(p, s, idx);
      }
    } else {
      EmbeddedIffEmbeds(p, s[1..]);
      if Embedded(p, s) {
        var idx' :| Placement(p, s[1..], idx');
        PlaceAfterHead(p, s, idx');
      }
      if Embeds(p, s) {
        var idx :| Placement(p, s, idx);
        UnplaceUnused(p, s, idx);
      }
    }
  }

  lemma {:induction false} LaterPlacementsGrow(p: string, s: string, idx: seq<int>, j: int)
    requires Placement(p, s, idx)
    requires 0 <= j < |idx|
    ensures idx[0] + j <= idx[j]
    decreases j
  {
    if j > 0 {
      LaterPlacementsGrow(p, s, idx, j - 1);
    }
  }

  lemma TagPairIsEmbedding(s: string)
    ensures HasTagPair(s) <==> Embeds("<><>", s)
  {
    if HasTagPair(s) {
      var i, k, l, m :| 0 <= i < k < l < m < |s|
        && s[i] == '<' && s[k] == '>' && s[l] == '<' && s[m] == '>';
      var p, idx := "<><>", [i, k, l, m];
      assert forall j :: 0 <= j < 4 ==> 0 <= idx[j] < |s| && s[idx[j]] == p[j];
      assert Placement(p, s, idx);
    }
    if Embeds("<><>", s) {
      var p := "<><>";
      var idx :| Placement(p, s, idx);
      assert p[0] == '<' && p[1] == '>' && p[2] == '<' && p[3] == '>';
      assert s[idx[0]] == '<' && s[idx[1]] == '>' && s[idx[2]] == '<' && s[idx[3]] == '>';
      assert 0 <= idx[0] < idx[1] < idx[2] < idx[3] < |s|;
    }
  }

  /** crawel.py `isLeafElement`, as written: true when the regular
      expression finds two tag-like tokens in the markup. */
  function IsLeafElement(html: string): (r: bool)
    ensures r <==> HasTagPair(html)
  {
    EmbeddedIffEmbeds("<><>", html);
    TagPairIsEmbedding(html);
    Embedded("<><>", html)
  }

  /** As written the test answers "yes" for markup that holds a child
      element and "no" for plain text: the opposite of its name. */
  lemma IsLeafElementInverted()
    ensures IsLeafElement("<b>x</b>")
    ensures !IsLeafElement("plain text")
  {
    var s := "<b>x</b>";
    assert s[0] == '<' && s[2] == '>' && s[4] == '<' && s[7] == '>';
    assert HasTagPair(s);
    assert '<' !in "plain text";
  }

  /** The leaf test the function's name and docstring describe: no nested
      tag in the markup. */
  function IsLeafIntended(html: string): (r: bool)
    ensures r <==> !HasTagPair(html)
    ensures '<' !in html ==> r
  {
    !IsLeafElement(html)
  }

  /** The test left commented out under the function: no `<` or no `>`. */
  predicate CommentedOutLeaf(html: string) {
    !('<' in html && '>' in html)
  }

  /** Markup the commented-out test calls a leaf is a leaf under the
      corrected test too. */
  lemma CommentedOutIsStricter(html: string)
    ensures CommentedOutLeaf(html) ==> IsLeafIntended(html)
  {
    if HasTagPair(html) {
      var i, k, l, m :| 0 <= i < k < l < m < |html|
        && html[i] == '<' && html[k] == '>' && html[l] == '<' && html[m] == '>';
      assert '<' in html && '>' in html;
    }
  }

  /** The converse fails: a lone tag such as `<br>` is a leaf under the
      corrected test but not under the commented-out one. */
  lemma CommentedOutRejectsLoneTag()
    ensures IsLeafIntended("<br>") && !CommentedOutLeaf("<br>")
  {
    var s := "<br>";
    assert s[0] == '<' && s[3] == '>';
    assert !HasTagPair(s) by {
      forall k | 0 < k < 2 ensures s[k] != '>' { }
    }
  }

  lemma IsLeafIntendedSeparates()
    ensures !IsLeafIntended("<b>x</b>")
    ensures IsLeafIntended("plain text")
  {
    IsLeafElementInverted();
  }
}

=== FILE: logconfig.dfy ===
/** `configLogging`: the log level a worker runs at, chosen from the
    `--loglevel` argument by exact, case-sensitive comparison with five
    lower-case names; anything else falls back to INFO. */
module LogConfig {

  /** The standard logging levels. */
  datatype Level = Debug | Info | Warning | Error | Critical

  /** The argument that selects each level. */
  function Name(l: Level): string {
    match l
    case Debug => "debug"
    case Info => "info"
    case Warning => "warning"
    case Error => "error"
    case Critical => "critical"
  }

  /** main.py `configLogging`: the level for an argument. Only the exact
      name of a level selects it; every other string gives INFO. */
  function LevelFor(arg: string): (l: Level)
    ensures l != Info ==> arg == Name(l)
    ensures (forall m :: arg != Name(m)) ==> l == Info
  {
    if arg == "info" then Info
    else if arg == "debug" then Debug
    else if arg == "warning" then Warning
    else if arg == "error" then Error
    else if arg == "critical" then Critical
    else Info
  }

  /** Each level is reached by its own name. */
  lemma NameSelectsLevel(l: Level)
    ensures LevelFor(Name(l)) == l
  {
  }

  /** The argument's default `INFO` is not one of the names, so it reaches
      INFO only through the fallback; so do other capitalisations. */
  lemma UpperCaseFallsBack()
    ensures forall m :: "INFO" != Name(m) && "DEBUG" != Name(m)
    ensures LevelFor("INFO") == Info && LevelFor("DEBUG") == Info
  {
  }
}

=== FILE: partition.dfy ===
/** `split_task_files`: take a window of the (already shuffled) URL list with
    Python slice semantics, then cut it into `num_workers` contiguous blocks
    of `n // num_workers` URLs each, the last block running to the end of
    the window. Each block becomes a task file with one URL per line. */
module Partition {
  import opened Wrappers
  import opened PyStr

  /** `num_urls // num_workers` with zero workers. */
  datatype SplitError = ZeroDivision

  function Flatten(bs: seq<seq<string>>): seq<string> {
    if |bs| == 0 then [] else Flatten(bs[..|bs| - 1]) + bs[|bs| - 1]
  }

  /** Where block `i` of `k` ends: `(i + 1) * (n // k)`, or `n` for the last. */
  function BlockEnd(n: nat, k: nat, i: nat): nat
    requires k >= 1
  {
    if i == k - 1 then n else (i + 1) * (n / k)
  }

  lemma MulMono(a: nat, b: nat, c: nat)
    requires a <= b
    ensures a * c <= b * c
  {
  }

  lemma BlockEndsInOrder(n: nat, k: nat, i: nat)
    requires k >= 1 && i < k
    ensures i * (n / k) <= BlockEnd(n, k, i) <= n
  {
    var per := n / k;
    MulMono(i, i + 1, per);
    MulMono(i, k, per);
    MulMono(i + 1, k, per);
    assert k * per <= n;
  }

  /** Block `i` of `k`: `urls[i * per : (i + 1) * per]`, the last to the end. */
  function Block(urls: seq<string>, k: nat, i: nat): (b: seq<string>)
    requires k >= 1 && i < k
    ensures i < k - 1 ==> |b| == |urls| / k
    ensures i == k - 1 ==> |b| == |urls| - (k - 1) * (|urls| / k)
  {
    var per := |urls| / k;
    BlockEndsInOrder(|urls|, k, i);
    assert (i + 1) * per == i * per + per;
    urls[i * per..BlockEnd(|urls|, k, i)]
  }

  /** The `k` contiguous blocks of `urls`. Blocks before the last hold
      `n // k` URLs each; the last holds the rest. */
  function Blocks(urls: seq<string>, k: nat): (bs: seq<seq<string>>)
    requires k >= 1
    ensures |bs| == k
    ensures forall i :: 0 <= i < k - 1 ==> |bs[i]| == |urls| / k
    ensures |bs[k - 1]| == |urls| - (k - 1) * (|urls| / k)
  {
    seq(k, i requires 0 <= i < k => Block(urls, k, i))
  }

  /** main.py `split_task_files` after the shuffle: slice
      `urls[url_st:url_st + num_urls]`, then partition among the workers.
      Zero workers divide by zero; a negative count writes no files. */
  function SplitTaskFiles(shuffled: seq<string>, numWorkers: int, urlSt: int, numUrls: int)
    : (r: Result<seq<seq<string>>, SplitError>)
    ensures r.Failure? <==> numWorkers == 0
    ensures numWorkers < 0 ==> r == Success([])
    ensures numWorkers > 0 ==> r.Success? && |r.value| == numWorkers
  {
    var urls := Slice(shuffled, urlSt, urlSt + numUrls);
    if numWorkers == 0 then Failure(ZeroDivision)
    else if numWorkers < 0 then Success([])
    else Success(Blocks(urls, numWorkers))
  }

  /** Where the first `m` blocks end: `m * (n // k)`. */
  function PrefixEnd(n: nat, k: nat, m: nat): (e: nat)
    requires k >= 1 && m <= k
    ensures e <= n
  {
    MulMono(m, k, n / k);
    m * (n / k)
  }

  /** Block `m - 1` (not the last) runs from the end of the first `m - 1`
      blocks to the end of the first `m`. */
  lemma BlockBetween(urls: seq<string>, k: nat, m: nat)
    requires k >= 1 && 1 <= m <= k - 1
    ensures PrefixEnd(|urls|, k, m - 1) <= PrefixEnd(|urls|, k, m)
    ensures Blocks(urls, k)[m - 1] == urls[PrefixEnd(|urls|, k, m - 1)..PrefixEnd(|urls|, k, m)]
  {
    var n, per := |urls|, |urls| / k;
    assert (m - 1) * per + per == m * per;
    assert BlockEnd(n, k, m - 1) == m * per;
  }

  lemma {:induction false} FlattenPrefix(urls: seq<string>, k: nat, m: nat)
    requires k >= 1 && m <= k - 1
    ensures Flatten(Blocks(urls, k)[..m]) == urls[..PrefixEnd(|urls|, k, m)]
    decreases m
  {
    var bs := Blocks(urls, k);
    if m == 0 {
      assert bs[..0] == [];
    } else {
      FlattenPrefix(urls, k, m - 1);
      BlockBetween(urls, k, m);
      var a, b := PrefixEnd(|urls|, k, m - 1), PrefixEnd(|urls|, k, m);
      assert bs[..m][..m - 1] == bs[..m - 1];
      assert Flatten(bs[..m]) == Flatten(bs[..m - 1]) + bs[m - 1];
      assert urls[..a] + urls[a..b] == urls[..b];
    }
  }

  /** Reading the blocks back in worker order gives the window exactly:
      every URL goes to exactly one worker and nothing is reordered. */
  lemma BlocksCoverExactly(urls: seq<string>, k: nat)
    requires k >= 1
    ensures Flatten(Blocks(urls, k)) == urls
  {
    var n, per, bs := |urls|, |urls| / k, Blocks(urls, k);
    FlattenPrefix(urls, k, k - 1);
    BlockEndsInOrder(n, k, k - 1);
    assert PrefixEnd(n, k, k - 1) == (k - 1) * per;
    assert bs[..k - 1] == bs[..k][..k - 1];
    assert bs[..k] == bs;
    assert bs[k - 1] == urls[(k - 1) * per..];
    assert urls[..(k - 1) * per] + urls[(k - 1) * per..] == urls;
  }

  /** With more workers than URLs every block but the last is empty and the
      last takes them all. */
  lemma MoreWorkersThanUrls(urls: seq<string>, k: nat)
    requires k >= 1 && k > |urls|
    ensures forall i :: 0 <= i < k - 1 ==> Blocks(urls, k)[i] == []
    ensures Blocks(urls, k)[k - 1] == urls
  {
    assert |urls| / k == 0;
  }

  /** Ten URLs over three workers: blocks of 3, 3 and 4. */
  lemma TenOverThree(urls: seq<string>)
    requires |urls| == 10
    ensures |Blocks(urls, 3)[0]| == 3 && |Blocks(urls, 3)[1]| == 3 && |Blocks(urls, 3)[2]| == 4
  {
  }

  /** The window actually sliced: for a non-negative start and count it is
      `min(num_urls, len - url_st)` long (never negative) and starts at
      `url_st`. */
  lemma SplitWindow(shuffled: seq<string>, numWorkers: int, urlSt: int, numUrls: int)
    requires numWorkers >= 1 && urlSt >= 0 && numUrls >= 0
    ensures SplitTaskFiles(shuffled, numWorkers, urlSt, numUrls).Success?
    ensures |Flatten(SplitTaskFiles(shuffled, numWorkers, urlSt, numUrls).value)|
            == Max(0, Min(numUrls, |shuffled| - urlSt))
    ensures urlSt <= |shuffled| ==>
              Flatten(SplitTaskFiles(shuffled, numWorkers, urlSt, numUrls).value)
              == shuffled[urlSt..Min(urlSt + numUrls, |shuffled|)]
  {
    SliceWindow(shuffled, urlSt, numUrls);
    BlocksCoverExactly(Slice(shuffled, urlSt, urlSt + numUrls), numWorkers);
  }

  /** The text of one task file: every URL followed by a newline. */
  function TaskFileText(block: seq<string>): string {
    if |block| == 0 then "" else block[0] + "\n" + TaskFileText(block[1..])
  }

  /** With the window covering the whole list, every URL of the original
      list lands in exactly one task file, however the shuffle permuted it. */
  lemma SplitCoversAll(urls: seq<string>, shuffled: seq<string>, numWorkers: int, numUrls: int)
    requires multiset(shuffled) == multiset(urls)
    requires numWorkers >= 1 && numUrls >= |urls|
    ensures multiset(Flatten(SplitTaskFiles(shuffled, numWorkers, 0, numUrls).value)) == multiset(urls)
  {
    assert |shuffled| == |urls| by {
      assert |multiset(shuffled)| == |multiset(urls)|;
    }
    SplitWindow(shuffled, numWorkers, 0, numUrls);
    assert shuffled[0..|shuffled|] == shuffled;
  }
}

=== FILE: pystr.dfy ===
/** The slice of Python's built-in string and list behaviour that the crawler
    leans on: `str.isspace`, `str.strip()`, `str.split(' ')`, slicing with
    clamped and negative indices, and `str(int)` as used inside f-strings. */
module PyStr {
  import opened Wrappers

  // ---------------------------------------------------------------------------
  // Whitespace and strip()
  // ---------------------------------------------------------------------------

  /** Python's `str.isspace` on one character: the ASCII controls \t..\r and
      \x1c..\x1f, the space, and the Unicode separators Python counts. */
  predicate IsSpace(c: char) {
    || c == ' '
    || ('\t' <= c <= '\r')
    || ('\U{1C}' <= c <= '\U{1F}')
    || c == '\U{85}' || c == '\U{A0}' || c == '\U{1680}'
    || ('\U{2000}' <= c <= '\U{200A}')
    || c == '\U{2028}' || c == '\U{2029}' || c == '\U{202F}'
    || c == '\U{205F}' || c == '\U{3000}'
  }

  ghost predicate AllSpace(s: string) {
    forall i :: 0 <= i < |s| ==> IsSpace(s[i])
  }

  /** A string that `strip()` leaves alone: empty, or non-space at both ends. */
  predicate Stripped(s: string) {
    s == [] || (!IsSpace(s[0]) && !IsSpace(s[|s| - 1]))
  }

  function StripLeft(s: string): (r: string)
    ensures |r| <= |s| && r == s[|s| - |r|..]
    ensures AllSpace(s[..|s| - |r|])
    ensures r == [] || !IsSpace(r[0])
  {
    if |s| > 0 && IsSpace(s[0]) then StripLeft(s[1..]) else s
  }

  function StripRight(s: string): (r: string)
    ensures |r| <= |s| && r == s[..|r|]
    ensures AllSpace(s[|r|..])
    ensures r == [] || !IsSpace(r[|r| - 1])
  {
    if |s| > 0 && IsSpace(s[|s| - 1]) then
      var init := s[..|s| - 1];
      var r := StripRight(init);
      assert s[|r|..] == init[|r|..] + [s[|s| - 1]];
      r
    else s
  }

  /** Python's `s.strip()`: a stripped string no longer than `s`. */
  function Strip(s: string): (r: string)
    ensures Stripped(r)
    ensures |r| <= |s|
  {
    var l := StripLeft(s);
    var r := StripRight(l);
    if r == [] then r
    else
      assert r[0] == l[0];
      r
  }

  /** `r` sits in `s` at offset `a` with only whitespace around it. */
  ghost predicate PaddedAt(s: string, r: string, a: int) {
    0 <= a <= |s| - |r| && s[a..a + |r|] == r && AllSpace(s[..a]) && AllSpace(s[a + |r|..])
  }

  /** What `strip()` removes: the result is the infix of `s` cut out between
      an all-space prefix and an all-space suffix. */
  lemma StripIsInfix(s: string)
    ensures exists a :: PaddedAt(s, Strip(s), a)
  {
    var l := StripLeft(s);
    var r := StripRight(l);
    assert Strip(s) == r;
    var a := |s| - |l|;
    assert l == s[a..];
    assert s[a..a + |r|] == r by {
      assert s[a..a + |r|] == l[..|r|];
    }
    assert s[a + |r|..] == l[|r|..];
    assert PaddedAt(s, r, a);
  }

  lemma {:induction false} StripLeftSkipsSpace(a: string, t: string)
    requires AllSpace(a)
    ensures StripLeft(a + t) == StripLeft(t)
    decreases |a|
  {
    if |a| > 0 {
      assert (a + t)[1..] == a[1..] + t;
      StripLeftSkipsSpace(a[1..], t);
    } else {
      assert a + t == t;
    }
  }

  lemma {:induction false} StripRightSkipsSpace(t: string, b: string)
    requires AllSpace(b)
    ensures StripRight(t + b) == StripRight(t)
    decreases |b|
  {
    if |b| > 0 {
      assert (t + b)[..|t + b| - 1] == t + b[..|b| - 1];
      StripRightSkipsSpace(t, b[..|b| - 1]);
    } else {
      assert t + b == t;
    }
  }

  /** `strip()` is determined by the padding: whatever all-space text
      surrounds a stripped string, stripping gives that string back. */
  lemma StripRemovesPadding(a: string, u: string, b: string)
    requires AllSpace(a) && AllSpace(b) && Stripped(u)
    ensures Strip(a + u + b) == u
  {
    assert a + u + b == a + (u + b);
    StripLeftSkipsSpace(a, u + b);
    if u == [] {
      assert u + b == b;
      StripLeftSkipsSpace(b, []);
      assert b + [] == b;
      assert StripLeft(a + u + b) == [];
    } else {
      assert (u + b)[0] == u[0];
      assert StripLeft(u + b) == u + b;
      StripRightSkipsSpace(u, b);
      assert StripRight(u) == u;
    }
  }

  lemma AllSpaceConcat(x: string, y: string)
    requires AllSpace(x) && AllSpace(y)
    ensures AllSpace(x + y)
  {
    forall j | 0 <= j < |x + y| ensures IsSpace((x + y)[j]) {
      if j >= |x| { assert (x + y)[j] == y[j - |x|]; }
    }
  }

  /** Whitespace added around any string is stripped with its own padding. */
  lemma StripAbsorbsPadding(a: string, s: string, b: string)
    requires AllSpace(a) && AllSpace(b)
    ensures Strip(a + s + b) == Strip(s)
  {
    StripIsInfix(s);
    var i :| PaddedAt(s, Strip(s), i);
    StripAbsorbsPaddingAt(a, s, b, i);
  }

  lemma StripAbsorbsPaddingAt(a: string, s: string, b: string, i: int)
    requires AllSpace(a) && AllSpace(b) && PaddedAt(s, Strip(s), i)
    ensures Strip(a + s + b) == Strip(s)
  {
    var u := Strip(s);
    var p, q := s[..i], s[i + |u|..];
    AllSpaceConcat(a, p);
    AllSpaceConcat(q, b);
    Regroup(a, s, b, p, u, q);
    StripRemovesPadding(a + p, u, q + b);
  }

  lemma Regroup<T>(a: seq<T>, s: seq<T>, b: seq<T>, p: seq<T>, u: seq<T>, q: seq<T>)
    requires |p| + |u| <= |s| && p == s[..|p|] && u == s[|p|..|p| + |u|] && q == s[|p| + |u|..]
    ensures a + s + b == (a + p) + u + (q + b)
  {
    assert s == p + u + q;
  }

  /** `strip()` yields the empty string exactly on all-whitespace input. */
  lemma StripEmptyIffAllSpace(s: string)
    ensures Strip(s) == [] <==> AllSpace(s)
  {
    if AllSpace(s) {
      StripRemovesPadding(s, [], []);
      assert s + [] + [] == s;
    }
  }

  lemma StripIdempotent(s: string)
    ensures Strip(Strip(s)) == Strip(s)
  {
    var u := Strip(s);
    StripRemovesPadding([], u, []);
    assert [] + u + [] == u;
  }

  // ---------------------------------------------------------------------------
  // split(sep) and its inverse join
  // ---------------------------------------------------------------------------

  function CountChar(s: string, c: char): nat {
    if |s| == 0 then 0 else (if s[0] == c then 1 else 0) + CountChar(s[1..], c)
  }

  /** `sep.join(parts)` for a one-character separator. */
  function Join(parts: seq<string>, sep: char): string {
    if |parts| == 0 then ""
    else if |parts| == 1 then parts[0]
    else parts[0] + [sep] + Join(parts[1..], sep)
  }

  /** Python's `s.split(sep)` with an explicit one-character separator: never
      empty, one more field than separators (runs of separators give empty
      fields), and no field holds the separator. */
  function Split(s: string, sep: char): (r: seq<string>)
    ensures |r| == CountChar(s, sep) + 1
    ensures forall k :: 0 <= k < |r| ==> sep !in r[k]
    decreases |s|
  {
    if |s| == 0 then [""]
    else
      var t := Split(s[1..], sep);
      if s[0] == sep then [""] + t
      else
        var r := [[s[0]] + t[0]] + t[1..];
        assert forall k :: 1 <= k < |r| ==> r[k] == t[k];
        r
  }

  /** Joining the fields of a split with the separator restores the input. */
  lemma {:induction false} SplitRejoins(s: string, sep: char)
    ensures Join(Split(s, sep), sep) == s
    decreases |s|
  {
    if |s| > 0 {
      var t := Split(s[1..], sep);
      SplitRejoins(s[1..], sep);
      if s[0] == sep {
        assert Join([""] + t, sep) == [sep] + Join(t, sep);
      } else {
        var r := [[s[0]] + t[0]] + t[1..];
        assert r[1..] == t[1..];
        if |t| > 1 {
          assert Join(t, sep) == t[0] + [sep] + Join(t[1..], sep);
        }
        assert [s[0]] + s[1..] == s;
      }
    }
  }

  lemma {:induction false} SplitNoSeparator(u: string, sep: char)
    requires sep !in u
    ensures Split(u, sep) == [u]
    decreases |u|
  {
    if |u| > 0 {
      SplitNoSeparator(u[1..], sep);
      assert [u[0]] + u[1..] == u;
    }
  }

  lemma {:induction false} SplitField(u: string, sep: char, t: string)
    requires sep !in u
    ensures Split(u + [sep] + t, sep) == [u] + Split(t, sep)
    decreases |u|
  {
    var s := u + [sep] + t;
    if |u| == 0 {
      assert s[1..] == t;
    } else {
      assert s[1..] == u[1..] + [sep] + t;
      SplitField(u[1..], sep, t);
      assert [u[0]] + u[1..] == u;
    }
  }

  /** Round trip the other way: splitting a join of separator-free fields
      recovers exactly those fields. */
  lemma {:induction false} SplitJoin(parts: seq<string>, sep: char)
    requires |parts| >= 1
    requires forall k :: 0 <= k < |parts| ==> sep !in parts[k]
    ensures Split(Join(parts, sep), sep) == parts
    decreases |parts|
  {
    if |parts| == 1 {
      SplitNoSeparator(parts[0], sep);
    } else {
      SplitJoin(parts[1..], sep);
      SplitField(parts[0], sep, Join(parts[1..], sep));
      assert [parts[0]] + parts[1..] == parts;
    }
  }

  // ---------------------------------------------------------------------------
  // Slicing seq[start:stop]
  // ---------------------------------------------------------------------------

  /** How Python resolves one slice bound against a length `n`: a negative
      bound counts from the end, then the bound is clamped into 0..n. */
  function ClampIndex(i: int, n: nat): (r: nat)
    ensures r <= n
  {
    if i < 0 then (if i + n < 0 then 0 else i + n)
    else if i > n then n
    else i
  }

  /** Python's `s[start:stop]` (step 1); never raises. */
  function Slice<T>(s: seq<T>, start: int, stop: int): seq<T> {
    var a := ClampIndex(start, |s|);
    var b := ClampIndex(stop, |s|);
    if a < b then s[a..b] else []
  }

  function Min(a: int, b: int): int { if a <= b then a else b }
  function Max(a: int, b: int): int { if a >= b then a else b }

  /** A window `s[st:st + n]` with non-negative start and count is the run of
      `s` from `st`, cut short by the end of `s` and empty past it. */
  lemma SliceWindow<T>(s: seq<T>, st: int, n: int)
    requires st >= 0 && n >= 0
    ensures |Slice(s, st, st + n)| == Max(0, Min(n, |s| - st))
    ensures st <= |s| ==> Slice(s, st, st + n) == s[st..Min(st + n, |s|)]
  {
  }

  /** A slice holds nothing its source does not. */
  lemma SliceMembers<T>(s: seq<T>, start: int, stop: int, x: T)
    ensures x in Slice(s, start, stop) ==> x in s
  {
    var a, b := ClampIndex(start, |s|), ClampIndex(stop, |s|);
    if a < b && x in s[a..b] {
      var i :| 0 <= i < b - a && s[a..b][i] == x;
      assert s[a + i] == x;
    }
  }

  /** `s[1:-2]` drops the first item and the last two; three or fewer items
      leave nothing. */
  lemma SliceDropEnds<T>(s: seq<T>)
    ensures |s| <= 3 ==> Slice(s, 1, -2) == []
    ensures |s| > 3 ==> Slice(s, 1, -2) == s[1..|s| - 2]
  {
  }

  // ---------------------------------------------------------------------------
  // str(int) and reading it back
  // ---------------------------------------------------------------------------

  predicate IsDigit(c: char) {
    '0' <= c <= '9'
  }

  function DigitChar(d: nat): (c: char)
    requires d < 10
    ensures IsDigit(c)
  {
    (48 + d) as char
  }

  function DigitValue(c: char): nat
    requires IsDigit(c)
  {
    (c as int) - 48
  }

  /** Decimal digits of `n`, most significant first, no leading zero. */
  function NatToDigits(n: nat): (r: string)
    ensures |r| >= 1
    ensures forall i :: 0 <= i < |r| ==> IsDigit(r[i])
    decreases n
  {
    if n < 10 then [DigitChar(n)] else NatToDigits(n / 10) + [DigitChar(n % 10)]
  }

  function DigitsToNat(d: string): nat
    requires forall i :: 0 <= i < |d| ==> IsDigit(d[i])
  {
    if |d| == 0 then 0 else 10 * DigitsToNat(d[..|d| - 1]) + DigitValue(d[|d| - 1])
  }

  /** Python's `str(i)` (equivalently f'{i}') for an integer. */
  function FormatInt(i: int): string {
    if i < 0 then "-" + NatToDigits(-i) else NatToDigits(i)
  }

  /** Length of the longest all-digit prefix of `s`. */
  function DigitRun(s: string): (k: nat)
    ensures k <= |s|
    ensures forall i :: 0 <= i < k ==> IsDigit(s[i])
    ensures k == |s| || !IsDigit(s[k])
  {
    if |s| == 0 || !IsDigit(s[0]) then 0 else 1 + DigitRun(s[1..])
  }

  /** Reads an optionally negative decimal integer off the front of `s`,
      returning it with the unread rest. */
  function ParseInt(s: string): Option<(int, string)> {
    if |s| > 0 && s[0] == '-' then
      var k := DigitRun(s[1..]);
      if k == 0 then None
      else
        var v := 0 - (DigitsToNat(s[1..1 + k]) as int);
        Some((v, s[1 + k..]))
    else
      var k := DigitRun(s);
      if k == 0 then None else Some((DigitsToNat(s[..k]), s[k..]))
  }

  lemma {:induction false} DigitsRoundTrip(n: nat)
    ensures DigitsToNat(NatToDigits(n)) == n
    decreases n
  {
    if n >= 10 {
      var d := NatToDigits(n);
      DigitsRoundTrip(n / 10);
      assert d[..|d| - 1] == NatToDigits(n / 10);
    }
  }

  lemma {:induction false} DigitRunStopsAt(d: string, t: string)
    requires forall i :: 0 <= i < |d| ==> IsDigit(d[i])
    requires t == [] || !IsDigit(t[0])
    ensures DigitRun(d + t) == |d|
    decreases |d|
  {
    if |d| == 0 {
      assert d + t == t;
    } else {
      assert (d + t)[1..] == d[1..] + t;
      DigitRunStopsAt(d[1..], t);
    }
  }

  lemma NatRoundTrip(n: nat, t: string)
    requires t == [] || !IsDigit(t[0])
    ensures ParseInt(NatToDigits(n) + t) == Some((n as int, t))
  {
    var d := NatToDigits(n);
    var s := d + t;
    DigitsRoundTrip(n);
    DigitRunStopsAt(d, t);
    assert s[0] == d[0] && d[0] != '-';
    assert s[..|d|] == d;
    assert s[|d|..] == t;
  }

  /** A minus sign in front of a digit string negates what is read. */
  lemma ParseNegated(u: string)
    requires |u| > 0 && IsDigit(u[0])
    ensures ParseInt(u).Some?
    ensures ParseInt("-" + u) == Some((0 - ParseInt(u).value.0, ParseInt(u).value.1))
  {
    var s := "-" + u;
    assert s[1..] == u;
    var k := DigitRun(u);
    assert s[1..1 + k] == u[..k];
    assert s[1 + k..] == u[k..];
  }

  lemma NegRoundTrip(n: nat, t: string)
    requires n > 0
    requires t == [] || !IsDigit(t[0])
    ensures ParseInt("-" + NatToDigits(n) + t) == Some((0 - (n as int), t))
  {
    var d := NatToDigits(n);
    assert "-" + d + t == "-" + (d + t);
    NatRoundTrip(n, t);
    ParseNegated(d + t);
  }

  /** `str(i)` reads back as `i`, provided what follows does not continue
      the digit run. */
  lemma FormatIntRoundTrip(i: int, t: string)
    requires t == [] || !IsDigit(t[0])
    ensures ParseInt(FormatInt(i) + t) == Some((i, t))
  {
    if i < 0 {
      NegRoundTrip(-i, t);
    } else {
      NatRoundTrip(i, t);
    }
  }
}

=== FILE: scan.dfy ===
/** The two element scans of one page: the clickable scan (links, buttons,
    submit inputs, anything with an onclick handler) and the titled-element
    hover scan. The browser is replaced by the values its reads return for
    each element, so a scan is a pure pass over a sequence of element
    records: classify each element, then keep the first element of every
    geometry signature. */
module Scan {
  import opened Wrappers
  import opened PyStr
  import opened Geometry
  import opened Distinct

  /** What one WebDriver read on an element gives back: a value, or an
      exception (a stale element reference, say). */
  datatype Read<+T> = Got(value: T) | Raised

  /** An element as the scans see it: location, size, visible text, the
      `value` and `title` attributes (None when absent) and is_displayed(). */
  datatype DomElement = DomElement(
    location: Read<(int, int)>,
    size: Read<(int, int)>,
    text: Read<Option<string>>,
    valueAttr: Read<Option<string>>,
    titleAttr: Read<Option<string>>,
    displayed: Read<bool>)

  /** The crawler's window: in bounded mode elements must end strictly
      inside width x height. */
  datatype Viewport = Viewport(bounded: bool, width: int, height: int)

  datatype Kind = Clickable | Hover

  /** The "type" field written for each kind of record. */
  function TypeTag(k: Kind): string {
    match k
    case Clickable => "text"
    case Hover => "hover"
  }

  /** One emitted record before the url and image path are attached. */
  datatype PageElement = PageElement(box: Box, text: string, kind: Kind)

  function BoxOf(p: PageElement): Box {
    p.box
  }

  /** `x + w >= width or y + h >= height`, only consulted in bounded mode. */
  predicate OutOfBounds(v: Viewport, b: Box) {
    v.bounded && (b.x + b.w >= v.width || b.y + b.h >= v.height)
  }

  /** `t is None or t == ''`. */
  predicate Missing(t: Option<string>) {
    t.None? || t.value == ""
  }

  /** Blank in the hover scan's sense: `t is None or t.strip() == ''`. */
  ghost predicate Blank(t: Option<string>) {
    t.None? || AllSpace(t.value)
  }

  lemma BlankIsStripEmpty(t: Option<string>)
    ensures Blank(t) <==> (t.None? || Strip(t.value) == "")
  {
    if t.Some? {
      StripEmptyIffAllSpace(t.value);
    }
  }

  // ---------------------------------------------------------------------------
  // Per-element decisions
  // ---------------------------------------------------------------------------

  /** The clickable scan's verdict on one element: its label is the visible
      text, or the `value` attribute when the text is None or empty (no
      whitespace stripping); it is dropped without a label, with a zero width
      or height, or, in bounded mode, when it reaches the window edge. A read
      that raises drops the element. */
  function ClassifyClickable(e: DomElement, v: Viewport): (r: Option<PageElement>)
    ensures r.Some? ==>
              && e.location == Got((r.value.box.x, r.value.box.y))
              && e.size == Got((r.value.box.w, r.value.box.h))
              && e.text.Got?
              && (if Missing(e.text.value) then e.valueAttr == Got(Some(r.value.text))
                  else e.text.value == Some(r.value.text))
              && r.value.text != ""
              && r.value.box.w != 0 && r.value.box.h != 0
              && !OutOfBounds(v, r.value.box)
              && r.value.kind == Clickable
    ensures (&& e.location.Got? && e.size.Got? && e.text.Got?
             && (!Missing(e.text.value) || (e.valueAttr.Got? && !Missing(e.valueAttr.value)))
             && e.size.value.0 != 0 && e.size.value.1 != 0
             && !OutOfBounds(v, Box(e.location.value.0, e.location.value.1, e.size.value.0, e.size.value.1)))
            ==> r.Some?
  {
    match (e.location, e.size, e.text)
    case (Got((x, y)), Got((w, h)), Got(text)) =>
      var caption := if Missing(text) then e.valueAttr else Got(text);
      if caption.Raised? || Missing(caption.value) then None
      else if w == 0 || h == 0 then None
      else if OutOfBounds(v, Box(x, y, w, h)) then None
      else Some(PageElement(Box(x, y, w, h), caption.value.value, Clickable))
    case _ => None
  }

  /** The hover scan's verdict on one titled element: only a displayed,
      non-zero, in-bounds element whose text is None or blank after strip is
      emitted, labelled with its non-empty `title`. An element with visible
      text is never emitted, whatever its title. */
  function ClassifyTitled(e: DomElement, v: Viewport): (r: Option<PageElement>)
    ensures r.Some? ==>
              && e.location == Got((r.value.box.x, r.value.box.y))
              && e.size == Got((r.value.box.w, r.value.box.h))
              && e.displayed == Got(true)
              && e.text.Got? && Blank(e.text.value)
              && e.titleAttr == Got(Some(r.value.text))
              && r.value.text != ""
              && r.value.box.w != 0 && r.value.box.h != 0
              && !OutOfBounds(v, r.value.box)
              && r.value.kind == Hover
    ensures (&& e.location.Got? && e.size.Got? && e.text.Got? && e.displayed == Got(true)
             && Blank(e.text.value)
             && e.titleAttr.Got? && !Missing(e.titleAttr.value)
             && e.size.value.0 != 0 && e.size.value.1 != 0
             && !OutOfBounds(v, Box(e.location.value.0, e.location.value.1, e.size.value.0, e.size.value.1)))
            ==> r.Some?
  {
    match (e.location, e.size, e.text, e.displayed)
    case (Got((x, y)), Got((w, h)), Got(text), Got(shown)) =>
      BlankIsStripEmpty(text);
      if !shown then None
      else if w == 0 || h == 0 then None
      else if OutOfBounds(v, Box(x, y, w, h)) then None
      else if text.None? || Strip(text.value) == "" then
        match e.titleAttr
        case Got(Some(title)) =>
          if title == "" then None else Some(PageElement(Box(x, y, w, h), title, Hover))
        case _ => None
      else None
    case _ => None
  }

  function Classify(e: DomElement, v: Viewport, k: Kind): Option<PageElement> {
    match k
    case Clickable => ClassifyClickable(e, v)
    case Hover => ClassifyTitled(e, v)
  }

  /** Each element's verdict, in element order. */
  function Candidates(es: seq<DomElement>, v: Viewport, k: Kind): (cs: seq<Option<PageElement>>)
  {
    seq(|es|, i requires 0 <= i < |es| => Classify(es[i], v, k))
  }

  /** The present values of `cs`, in order. */
  function Emitted<T>(cs: seq<Option<T>>): seq<T> {
    if |cs| == 0 then []
    else Emitted(cs[..|cs| - 1]) + (if cs[|cs| - 1].Some? then [cs[|cs| - 1].value] else [])
  }

  lemma {:induction false} EmittedConcat<T>(a: seq<Option<T>>, b: seq<Option<T>>)
    ensures Emitted(a + b) == Emitted(a) + Emitted(b)
    decreases |b|
  {
    if |b| == 0 {
      assert a + b == a;
    } else {
      assert (a + b)[..|a + b| - 1] == a + b[..|b| - 1];
      EmittedConcat(a, b[..|b| - 1]);
    }
  }

  lemma {:induction false} EmittedMembers<T>(cs: seq<Option<T>>)
    ensures forall x :: x in Emitted(cs) <==> Some(x) in cs
    decreases |cs|
  {
    if |cs| > 0 {
      EmittedMembers(cs[..|cs| - 1]);
      assert cs == cs[..|cs| - 1] + [cs[|cs| - 1]];
    }
  }

  function Signatures(r: seq<PageElement>): set<string> {
    set k | 0 <= k < |r| :: Signature(r[k].box)
  }

  lemma SignaturesAppend(r: seq<PageElement>, p: PageElement)
    ensures Signatures(r + [p]) == Signatures(r) + {Signature(p.box)}
  {
    var t := r + [p];
    assert forall k :: 0 <= k < |r| ==> t[k] == r[k];
    assert t[|r|] == p;
  }

  /** A signature is in the set exactly when its box is among the kept
      boxes, since signatures tell boxes apart. */
  lemma SignatureSeen(results: seq<PageElement>, p: PageElement)
    ensures Signature(p.box) in Signatures(results) <==> BoxOf(p) in KeySet(results, BoxOf)
  {
    if Signature(p.box) in Signatures(results) {
      var k :| 0 <= k < |results| && Signature(results[k].box) == Signature(p.box);
      SignatureInjective(results[k].box, p.box);
      assert BoxOf(results[k]) == BoxOf(p);
    }
    if BoxOf(p) in KeySet(results, BoxOf) {
      var k :| 0 <= k < |results| && BoxOf(results[k]) == BoxOf(p);
      assert Signature(results[k].box) == Signature(p.box);
    }
  }

  /** One turn of the scan loop: a verdict whose signature is already in
      the set adds nothing, a new one is appended. */
  lemma DedupStep(cs: seq<Option<PageElement>>, i: int, results: seq<PageElement>, signatures: set<string>)
    requires 0 <= i < |cs|
    requires results == FirstsBy(Emitted(cs[..i]), BoxOf)
    requires signatures == Signatures(results)
    ensures FirstsBy(Emitted(cs[..i + 1]), BoxOf)
            == if cs[i].Some? && Signature(cs[i].value.box) !in signatures then results + [cs[i].value]
               else results
  {
    var seen := Emitted(cs[..i]);
    assert cs[..i + 1][..i] == cs[..i];
    assert Emitted(cs[..i + 1]) == seen + (if cs[i].Some? then [cs[i].value] else []);
    if cs[i].Some? {
      var p := cs[i].value;
      FirstsByKeys(seen, BoxOf);
      FirstsByAppend(seen, p, BoxOf);
      SignatureSeen(results, p);
      assert BoxOf(p) in KeySet(seen, BoxOf) <==> Signature(p.box) in signatures;
    } else {
      assert seen + [] == seen;
    }
  }

  // ---------------------------------------------------------------------------
  // The scan loop
  // ---------------------------------------------------------------------------

  /** The loop both scans share: walk the verdicts in order with a set of
      seen signatures, keep a verdict whose signature is new. It computes
      first-occurrence dedup by box, and no two kept records share a
      signature. */
  method DedupBySignature(cs: seq<Option<PageElement>>) returns (results: seq<PageElement>)
    ensures results == FirstsBy(Emitted(cs), BoxOf)
    ensures forall a, b :: 0 <= a < b < |results| ==> Signature(results[a].box) != Signature(results[b].box)
  {
    results := [];
    var signatures: set<string> := {};
    var i := 0;
    while i < |cs|
      invariant i <= |cs|
      invariant results == FirstsBy(Emitted(cs[..i]), BoxOf)
      invariant signatures == Signatures(results)
    {
      DedupStep(cs, i, results, signatures);
      match cs[i] {
        case None =>
        case Some(p) =>
          var signature := Signature(p.box);
          if signature !in signatures {
            SignaturesAppend(results, p);
            signatures := signatures + {signature};
            results := results + [p];
          }
      }
      i := i + 1;
    }
    assert cs[..i] == cs;
    FirstsByKeys(Emitted(cs), BoxOf);
    forall a, b | 0 <= a < b < |results|
      ensures Signature(results[a].box) != Signature(results[b].box)
    {
      SignatureInjective(results[a].box, results[b].box);
    }
  }

  /** crawel.py `__processClickableElements`: the first element of each box
      among those the clickable filter accepts, in element order. Every
      record has a non-empty label, a non-zero size and stays in bounds; no
      two share a signature; every accepted element's signature is present. */
  method ScanClickable(es: seq<DomElement>, v: Viewport) returns (r: seq<PageElement>)
    ensures r == FirstsBy(Emitted(Candidates(es, v, Clickable)), BoxOf)
    ensures forall k :: 0 <= k < |r| ==>
              && r[k].kind == Clickable && r[k].text != ""
              && r[k].box.w != 0 && r[k].box.h != 0 && !OutOfBounds(v, r[k].box)
    ensures forall a, b :: 0 <= a < b < |r| ==> Signature(r[a].box) != Signature(r[b].box)
    ensures forall i :: 0 <= i < |es| && ClassifyClickable(es[i], v).Some? ==>
              Signature(ClassifyClickable(es[i], v).value.box) in Signatures(r)
  {
    var cs := Candidates(es, v, Clickable);
    assert forall i :: 0 <= i < |es| ==> cs[i] == ClassifyClickable(es[i], v);
    r := DedupBySignature(cs);
    PoolFacts(cs, r);
  }

  /** crawel.py `__processHoverElementsV2`: the same dedup over the titled
      elements the hover filter accepts, with its own signature set. */
  method ScanTitled(es: seq<DomElement>, v: Viewport) returns (r: seq<PageElement>)
    ensures r == FirstsBy(Emitted(Candidates(es, v, Hover)), BoxOf)
    ensures forall k :: 0 <= k < |r| ==>
              && r[k].kind == Hover && r[k].text != ""
              && r[k].box.w != 0 && r[k].box.h != 0 && !OutOfBounds(v, r[k].box)
    ensures forall a, b :: 0 <= a < b < |r| ==> Signature(r[a].box) != Signature(r[b].box)
    ensures forall i :: 0 <= i < |es| && ClassifyTitled(es[i], v).Some? ==>
              Signature(ClassifyTitled(es[i], v).value.box) in Signatures(r)
  {
    var cs := Candidates(es, v, Hover);
    assert forall i :: 0 <= i < |es| ==> cs[i] == ClassifyTitled(es[i], v);
    r := DedupBySignature(cs);
    PoolFacts(cs, r);
  }

  /** What a pool inherits from its verdicts: every record is some verdict,
      and every verdict's box is represented. */
  lemma PoolFacts(cs: seq<Option<PageElement>>, r: seq<PageElement>)
    requires r == FirstsBy(Emitted(cs), BoxOf)
    ensures forall k :: 0 <= k < |r| ==> Some(r[k]) in cs
    ensures forall i :: 0 <= i < |cs| && cs[i].Some? ==> Signature(cs[i].value.box) in Signatures(r)
  {
    EmittedMembers(cs);
    FirstsByFirstWins(Emitted(cs), BoxOf);
    FirstsByKeys(Emitted(cs), BoxOf);
    forall i | 0 <= i < |cs| && cs[i].Some?
      ensures Signature(cs[i].value.box) in Signatures(r)
    {
      var e := Emitted(cs);
      assert cs[i].value in e;
      var j :| 0 <= j < |e| && e[j] == cs[i].value;
      assert BoxOf(e[j]) in KeySet(e, BoxOf);
      var k :| 0 <= k < |r| && BoxOf(r[k]) == BoxOf(e[j]);
    }
  }

  /** Removing an element removes its verdict and leaves the others. */
  lemma CandidatesSplice(es: seq<DomElement>, i: int, v: Viewport, k: Kind)
    requires 0 <= i < |es|
    ensures Candidates(es[..i] + es[i + 1..], v, k) == Candidates(es, v, k)[..i] + Candidates(es, v, k)[i + 1..]
  {
    var es' := es[..i] + es[i + 1..];
    assert forall j :: 0 <= j < |es'| ==> es'[j] == if j < i then es[j] else es[j + 1];
  }

  /** An element the filter drops, or one whose reads raise, leaves the rest
      of the scan exactly as if it were not there: the scan never aborts. */
  lemma SkippedElementIsInvisible(es: seq<DomElement>, i: int, v: Viewport, k: Kind)
    requires 0 <= i < |es|
    requires Classify(es[i], v, k).None?
    ensures Emitted(Candidates(es, v, k)) == Emitted(Candidates(es[..i] + es[i + 1..], v, k))
  {
    var cs := Candidates(es, v, k);
    CandidatesSplice(es, i, v, k);
    assert cs == cs[..i] + [cs[i]] + cs[i + 1..];
    EmittedConcat(cs[..i] + [cs[i]], cs[i + 1..]);
    EmittedConcat(cs[..i], [cs[i]]);
    EmittedConcat(cs[..i], cs[i + 1..]);
    assert Emitted([cs[i]]) == [] by {
      assert [cs[i]][..0] == [];
    }
  }

  /** An element that raises on any of the reads every scan performs is
      dropped by both scans. */
  lemma RaisingElementIsDropped(e: DomElement, v: Viewport, k: Kind)
    requires e.location.Raised? || e.size.Raised? || e.text.Raised?
    ensures Classify(e, v, k).None?
  {
  }

  /** A button with visible text at a given box. */
  function Button(x: int, y: int, caption: string): DomElement {
    DomElement(Got((x, y)), Got((40, 20)), Got(Some(caption)), Got(None), Got(None), Got(true))
  }

  lemma ButtonAccepted(x: int, y: int, caption: string, v: Viewport)
    requires !v.bounded && caption != ""
    ensures Classify(Button(x, y, caption), v, Clickable) == Some(PageElement(Box(x, y, 40, 20), caption, Clickable))
  {
  }

  /** Three labelled buttons at distinct positions give three clickable
      records with distinct boxes, in order. */
  lemma ThreeButtons(v: Viewport, x0: int, x1: int, x2: int, y: int, l0: string, l1: string, l2: string)
    requires !v.bounded
    requires x0 != x1 && x1 != x2 && x0 != x2
    requires l0 != "" && l1 != "" && l2 != ""
    ensures FirstsBy(Emitted(Candidates([Button(x0, y, l0), Button(x1, y, l1), Button(x2, y, l2)], v, Clickable)), BoxOf)
            == [PageElement(Box(x0, y, 40, 20), l0, Clickable),
                PageElement(Box(x1, y, 40, 20), l1, Clickable),
                PageElement(Box(x2, y, 40, 20), l2, Clickable)]
  {
    var es := [Button(x0, y, l0), Button(x1, y, l1), Button(x2, y, l2)];
    var cs := Candidates(es, v, Clickable);
    var a, b, c := PageElement(Box(x0, y, 40, 20), l0, Clickable),
                   PageElement(Box(x1, y, 40, 20), l1, Clickable),
                   PageElement(Box(x2, y, 40, 20), l2, Clickable);
    ButtonAccepted(x0, y, l0, v);
    ButtonAccepted(x1, y, l1, v);
    ButtonAccepted(x2, y, l2, v);
    assert cs == [Some(a)] + [Some(b)] + [Some(c)];
    assert Emitted([Some(a)]) == [a] && Emitted([Some(b)]) == [b] && Emitted([Some(c)]) == [c] by {
      assert [Some(a)][..0] == [] && [Some(b)][..0] == [] && [Some(c)][..0] == [];
    }
    EmittedConcat([Some(a)] + [Some(b)], [Some(c)]);
    EmittedConcat([Some(a)], [Some(b)]);
    assert Emitted(cs) == [a, b, c];
    assert KeysDistinct([a, b, c], BoxOf);
    FirstsByShrinks([a, b, c], BoxOf);
  }

  /** A visible 16x16 icon with no text and the title "Info" gives one
      hover record labelled "Info". */
  lemma TitledIcon(v: Viewport, x: int, y: int)
    requires !v.bounded
    ensures ClassifyTitled(DomElement(Got((x, y)), Got((16, 16)), Got(Some("")), Got(None), Got(Some("Info")), Got(true)), v)
            == Some(PageElement(Box(x, y, 16, 16), "Info", Hover))
  {
    assert Blank(Some(""));
  }
}

=== FILE: worker.dfy ===
/** `worker_function`: read the worker's task file line by line, hand each
    stripped line to `processURL`, write every returned record as one JSON
    line and flush, log and skip a URL whose processing raised, restart the
    browser after every successful URL whose 0-based index is a positive
    multiple of 100, and quit the browser at the end. The browser's answer
    for each URL is an input: a list of records, or an exception. */
module Worker {
  import opened PyStr
  import opened Partition
  import Capture

  /** What `processURL` did for one URL: returned its records, or raised. */
  datatype UrlOutcome = Processed(records: seq<Capture.Record>) | Raised

  /** The observable effects of the loop, in order. */
  datatype Event =
    | Visited(line: string)          // `processURL(line.strip())` was called
    | Wrote(record: Capture.Record)  // one JSON line appended to the output file
    | Flushed                        // `out_file.flush()`
    | ErrorLogged(line: string)      // the raw line, newline included, in the error log
    | Restarted(index: nat)          // `crawler.restart()` after URL `index`
    | Quit                           // `crawler.quit()`

  /** Iterating a text file: each line keeps its `\n`; the last line may
      lack one; an empty file has no lines. */
  function ReadLines(text: string): seq<string>
    decreases |text|
  {
    if |text| == 0 then []
    else
      var rest := ReadLines(text[1..]);
      if text[0] == '\n' then ["\n"] + rest
      else if |rest| == 0 then [[text[0]]]
      else [[text[0]] + rest[0]] + rest[1..]
  }

  lemma {:induction false} ReadLinesLine(u: string, t: string)
    requires '\n' !in u
    ensures ReadLines(u + "\n" + t) == [u + "\n"] + ReadLines(t)
    decreases |u|
  {
    if |u| == 0 {
      assert u + "\n" + t == "\n" + t;
      assert ("\n" + t)[1..] == t;
    } else {
      ReadLinesLine(u[1..], t);
      assert (u + "\n" + t)[1..] == u[1..] + "\n" + t;
      assert [u[0]] + (u[1..] + "\n") == u + "\n";
    }
  }

  /** A worker reads back exactly the URLs its task file was written with,
      each with its newline, provided no URL holds a newline itself. */
  lemma {:induction false} TaskFileRoundTrip(block: seq<string>)
    requires forall k :: 0 <= k < |block| ==> '\n' !in block[k]
    ensures ReadLines(TaskFileText(block)) == seq(|block|, k requires 0 <= k < |block| => block[k] + "\n")
    decreases |block|
  {
    if |block| > 0 {
      TaskFileRoundTrip(block[1..]);
      ReadLinesLine(block[0], TaskFileText(block[1..]));
    }
  }

  /** The restart rule: after a successful URL at 0-based index `i > 0`
      with `i % 100 == 0`. */
  predicate RestartsAfter(i: nat) {
    i > 0 && i % 100 == 0
  }

  function Writes(rs: seq<Capture.Record>): (r: seq<Event>)
  {
    seq(|rs|, k requires 0 <= k < |rs| => Wrote(rs[k]))
  }

  /** The events of one iteration for line `i`. */
  function Step(i: nat, line: string, o: UrlOutcome): seq<Event> {
    [Visited(line)] +
    match o
    case Raised => [ErrorLogged(line)]
    case Processed(rs) => Writes(rs) + [Flushed] + RestartEvents(i)
  }

  /** The restart a successful iteration `i` may end with. */
  function RestartEvents(i: nat): seq<Event> {
    if RestartsAfter(i) then [Restarted(i)] else []
  }

  /** The loop over the first `|lines|` lines, before `quit`. */
  function Loop(lines: seq<string>, outcomes: seq<UrlOutcome>): seq<Event>
    requires |outcomes| == |lines|
  {
    if |lines| == 0 then []
    else
      var n := |lines| - 1;
      Loop(lines[..n], outcomes[..n]) + Step(n, lines[n], outcomes[n])
  }

  /** The whole run of `worker_function`: the loop, then `quit`. */
  function Run(lines: seq<string>, outcomes: seq<UrlOutcome>): (t: seq<Event>)
    requires |outcomes| == |lines|
    ensures |t| > 0 && t[|t| - 1] == Quit
  {
    Loop(lines, outcomes) + [Quit]
  }

  /** The kinds of event, to pick one kind out of a trace. */
  datatype EventKind = VisitKind | WriteKind | FlushKind | ErrorKind | RestartKind | QuitKind

  function KindOf(e: Event): EventKind {
    match e
    case Visited(_) => VisitKind
    case Wrote(_) => WriteKind
    case Flushed => FlushKind
    case ErrorLogged(_) => ErrorKind
    case Restarted(_) => RestartKind
    case Quit => QuitKind
  }

  /** The events of kind `k` in `t`, in trace order. */
  function Only(t: seq<Event>, k: EventKind): seq<Event> {
    if |t| == 0 then []
    else Only(t[..|t| - 1], k) + (if KindOf(t[|t| - 1]) == k then [t[|t| - 1]] else [])
  }

  lemma {:induction false} OnlyAppend(t: seq<Event>, u: seq<Event>, k: EventKind)
    ensures Only(t + u, k) == Only(t, k) + Only(u, k)
    decreases |u|
  {
    if |u| == 0 {
      assert t + u == t;
    } else {
      OnlyAppend(t, u[..|u| - 1], k);
      assert (t + u)[..|t + u| - 1] == t + u[..|u| - 1];
    }
  }

  lemma OnlySingle(e: Event, k: EventKind)
    ensures Only([e], k) == Keep([e], KindOf(e) == k)
  {
    assert [e][..0] == [];
  }

  lemma {:induction false} OnlyWrites(rs: seq<Capture.Record>, k: EventKind)
    ensures Only(Writes(rs), k) == Keep(Writes(rs), k == WriteKind)
    decreases |rs|
  {
    if |rs| > 0 {
      var n := |rs| - 1;
      var init, last := Writes(rs[..n]), Wrote(rs[n]);
      assert Writes(rs) == init + [last];
      OnlyWrites(rs[..n], k);
      OnlyAppend(init, [last], k);
      OnlySingle(last, k);
    }
  }

  /** The visits a run of `lines` makes, one per line, in order. */
  function Visits(lines: seq<string>): (r: seq<Event>)
  {
    seq(|lines|, k requires 0 <= k < |lines| => Visited(lines[k]))
  }

  /** The error-log entries for the given raw lines, in order. */
  function Logged(lines: seq<string>): (r: seq<Event>)
  {
    seq(|lines|, k requires 0 <= k < |lines| => ErrorLogged(lines[k]))
  }

  /** The records one URL contributes: its records if it succeeded. */
  function RecordsOf(o: UrlOutcome): seq<Capture.Record> {
    if o.Processed? then o.records else []
  }

  /** Reference: the records of the successful URLs, concatenated in order. */
  function AllRecords(os: seq<UrlOutcome>): seq<Capture.Record> {
    if |os| == 0 then [] else AllRecords(os[..|os| - 1]) + RecordsOf(os[|os| - 1])
  }

  /** Reference: the raw lines whose URL raised, in order. */
  function FailedLines(lines: seq<string>, os: seq<UrlOutcome>): seq<string>
    requires |os| == |lines|
  {
    if |os| == 0 then []
    else
      var n := |os| - 1;
      FailedLines(lines[..n], os[..n]) + (if os[n].Raised? then [lines[n]] else [])
  }

  /** What one failed iteration contributes to the events of each kind. */
  lemma StepOnlyRaised(i: nat, line: string, k: EventKind)
    ensures Only(Step(i, line, Raised), k) ==
      Keep([Visited(line)], k == VisitKind) + Keep([ErrorLogged(line)], k == ErrorKind)
  {
    OnlySingle(Visited(line), k);
    OnlySingle(ErrorLogged(line), k);
    OnlyAppend([Visited(line)], [ErrorLogged(line)], k);
  }

  /** What one successful iteration contributes to the events of each kind. */
  lemma OnlyFour(a: seq<Event>, b: seq<Event>, c: seq<Event>, d: seq<Event>, k: EventKind)
    ensures Only(a + (b + c + d), k) == Only(a, k) + Only(b, k) + Only(c, k) + Only(d, k)
  {
    OnlyAppend(b, c, k);
    OnlyAppend(b + c, d, k);
    OnlyAppend(a, b + c + d, k);
  }

  lemma StepProcessedParts(i: nat, line: string, rs: seq<Capture.Record>, k: EventKind)
    ensures Only(Step(i, line, Processed(rs)), k)
            == Only([Visited(line)], k) + Only(Writes(rs), k) + Only([Flushed], k) + Only(RestartEvents(i), k)
  {
    var head, w, fl, re := [Visited(line)], Writes(rs), [Flushed], RestartEvents(i);
    assert Step(i, line, Processed(rs)) == head + (w + fl + re);
    OnlyFour(head, w, fl, re, k);
  }

  /** `s` when `on` holds, nothing otherwise. */
  function Keep(s: seq<Event>, on: bool): seq<Event> {
    if on then s else []
  }

  lemma OnlyRestartEvents(i: nat, k: EventKind)
    ensures Only(RestartEvents(i), k) == Keep([Restarted(i)], k == RestartKind && RestartsAfter(i))
  {
    if RestartsAfter(i) {
      OnlySingle(Restarted(i), k);
    } else {
      assert Only([], k) == [];
    }
  }

  lemma StepOnlyProcessed(i: nat, line: string, rs: seq<Capture.Record>, k: EventKind)
    ensures Only(Step(i, line, Processed(rs)), k)
            == Keep([Visited(line)], k == VisitKind) + Keep(Writes(rs), k == WriteKind)
               + Keep([Flushed], k == FlushKind) + Keep([Restarted(i)], k == RestartKind && RestartsAfter(i))
  {
    StepProcessedParts(i, line, rs, k);
    OnlySingle(Visited(line), k);
    OnlyWrites(rs, k);
    OnlySingle(Flushed, k);
    OnlyRestartEvents(i, k);
  }

  lemma WritesAppend(a: seq<Capture.Record>, b: seq<Capture.Record>)
    ensures Writes(a + b) == Writes(a) + Writes(b)
  {
  }

  lemma LoggedAppend(a: seq<string>, b: seq<string>)
    ensures Logged(a + b) == Logged(a) + Logged(b)
  {
  }

  /** Every iteration visits its line exactly once. */
  lemma StepVisits(i: nat, line: string, o: UrlOutcome)
    ensures Only(Step(i, line, o), VisitKind) == [Visited(line)]
  {
    match o {
      case Raised => StepOnlyRaised(i, line, VisitKind);
      case Processed(rs) => StepOnlyProcessed(i, line, rs, VisitKind);
    }
  }

  /** An iteration writes the records of its URL, and nothing if it raised. */
  lemma StepWrites(i: nat, line: string, o: UrlOutcome)
    ensures Only(Step(i, line, o), WriteKind) == Writes(RecordsOf(o))
  {
    match o {
      case Raised =>
        StepOnlyRaised(i, line, WriteKind);
        assert Writes([]) == [];
      case Processed(rs) => StepOnlyProcessed(i, line, rs, WriteKind);
    }
  }

  /** An iteration logs its raw line exactly when its URL raised. */
  lemma StepErrors(i: nat, line: string, o: UrlOutcome)
    ensures Only(Step(i, line, o), ErrorKind) == Logged(if o.Raised? then [line] else [])
  {
    match o {
      case Raised =>
        StepOnlyRaised(i, line, ErrorKind);
        assert Logged([line]) == [ErrorLogged(line)];
      case Processed(rs) =>
        StepOnlyProcessed(i, line, rs, ErrorKind);
        assert Logged([]) == [];
    }
  }

  lemma {:induction false} LoopVisits(lines: seq<string>, outcomes: seq<UrlOutcome>)
    requires |outcomes| == |lines|
    ensures Only(Loop(lines, outcomes), VisitKind) == Visits(lines)
    decreases |lines|
  {
    if |lines| > 0 {
      var n := |lines| - 1;
      var init, step := Loop(lines[..n], outcomes[..n]), Step(n, lines[n], outcomes[n]);
      assert Loop(lines, outcomes) == init + step;
      LoopVisits(lines[..n], outcomes[..n]);
      StepVisits(n, lines[n], outcomes[n]);
      OnlyAppend(init, step, VisitKind);
      assert Visits(lines) == Visits(lines[..n]) + [Visited(lines[n])];
    }
  }

  lemma {:induction false} LoopWrites(lines: seq<string>, outcomes: seq<UrlOutcome>)
    requires |outcomes| == |lines|
    ensures Only(Loop(lines, outcomes), WriteKind) == Writes(AllRecords(outcomes))
    decreases |lines|
  {
    if |lines| > 0 {
      var n := |lines| - 1;
      var init, step := Loop(lines[..n], outcomes[..n]), Step(n, lines[n], outcomes[n]);
      assert Loop(lines, outcomes) == init + step;
      LoopWrites(lines[..n], outcomes[..n]);
      StepWrites(n, lines[n], outcomes[n]);
      OnlyAppend(init, step, WriteKind);
      WritesAppend(AllRecords(outcomes[..n]), RecordsOf(outcomes[n]));
    }
  }

  lemma {:induction false} LoopErrors(lines: seq<string>, outcomes: seq<UrlOutcome>)
    requires |outcomes| == |lines|
    ensures Only(Loop(lines, outcomes), ErrorKind) == Logged(FailedLines(lines, outcomes))
    decreases |lines|
  {
    if |lines| > 0 {
      var n := |lines| - 1;
      var init, step := Loop(lines[..n], outcomes[..n]), Step(n, lines[n], outcomes[n]);
      assert Loop(lines, outcomes) == init + step;
      LoopErrors(lines[..n], outcomes[..n]);
      StepErrors(n, lines[n], outcomes[n]);
      OnlyAppend(init, step, ErrorKind);
      LoggedAppend(FailedLines(lines[..n], outcomes[..n]), if outcomes[n].Raised? then [lines[n]] else []);
    }
  }

  /** Reference: how many URLs were processed without raising. */
  function Successes(os: seq<UrlOutcome>): nat {
    if |os| == 0 then 0 else Successes(os[..|os| - 1]) + (if os[|os| - 1].Processed? then 1 else 0)
  }

  /** `n` flushes in a row. */
  function Flushes(n: nat): seq<Event> {
    seq(n, _ => Flushed)
  }

  /** An iteration flushes once when its URL succeeded, and not otherwise. */
  lemma StepFlushes(i: nat, line: string, o: UrlOutcome)
    ensures Only(Step(i, line, o), FlushKind) == Flushes(if o.Processed? then 1 else 0)
  {
    match o {
      case Raised =>
        StepOnlyRaised(i, line, FlushKind);
      case Processed(rs) =>
        StepOnlyProcessed(i, line, rs, FlushKind);
        assert Flushes(1) == [Flushed];
    }
  }

  /** The loop flushes the output file once per successful URL and never
      for a URL that raised. */
  lemma {:induction false} LoopFlushes(lines: seq<string>, outcomes: seq<UrlOutcome>)
    requires |outcomes| == |lines|
    ensures Only(Loop(lines, outcomes), FlushKind) == Flushes(Successes(outcomes))
    decreases |lines|
  {
    if |lines| > 0 {
      var n := |lines| - 1;
      var init, step := Loop(lines[..n], outcomes[..n]), Step(n, lines[n], outcomes[n]);
      assert Loop(lines, outcomes) == init + step;
      LoopFlushes(lines[..n], outcomes[..n]);
      StepFlushes(n, lines[n], outcomes[n]);
      OnlyAppend(init, step, FlushKind);
      var a, b := Successes(outcomes[..n]), if outcomes[n].Processed? then 1 else 0;
      assert Flushes(a + b) == Flushes(a) + Flushes(b);
    }
  }

  lemma StepRestart(i: nat, line: string, o: UrlOutcome, j: nat)
    ensures Restarted(j) in Step(i, line, o) <==> o.Processed? && RestartsAfter(i) && j == i
    ensures Quit !in Step(i, line, o)
  {
  }

  lemma {:induction false} LoopRestarts(lines: seq<string>, outcomes: seq<UrlOutcome>)
    requires |outcomes| == |lines|
    ensures forall j: nat :: Restarted(j) in Loop(lines, outcomes) <==>
              j < |lines| && outcomes[j].Processed? && RestartsAfter(j)
    ensures Quit !in Loop(lines, outcomes)
    decreases |lines|
  {
    if |lines| > 0 {
      var n := |lines| - 1;
      LoopRestarts(lines[..n], outcomes[..n]);
      forall j: nat ensures Restarted(j) in Step(n, lines[n], outcomes[n]) <==>
                              outcomes[n].Processed? && RestartsAfter(n) && j == n {
        StepRestart(n, lines[n], outcomes[n], j);
      }
      StepRestart(n, lines[n], outcomes[n], 0);
    }
  }

  /** What a worker run does: it calls `processURL` once per line, in file
      order; it writes exactly the records of the URLs that succeeded, in
      order; it logs exactly the raw lines whose URL raised; it restarts
      after URL `j` exactly when that URL succeeded and `j` is a positive
      multiple of 100; and it quits once, as the very last event. */
  lemma RunViews(lines: seq<string>, outcomes: seq<UrlOutcome>)
    requires |outcomes| == |lines|
    ensures Only(Run(lines, outcomes), VisitKind) == Visits(lines)
    ensures Only(Run(lines, outcomes), WriteKind) == Writes(AllRecords(outcomes))
    ensures Only(Run(lines, outcomes), ErrorKind) == Logged(FailedLines(lines, outcomes))
    ensures forall j: nat :: Restarted(j) in Run(lines, outcomes) <==>
              j < |lines| && outcomes[j].Processed? && RestartsAfter(j)
    ensures Quit !in Run(lines, outcomes)[..|Run(lines, outcomes)| - 1]
  {
    var loop := Loop(lines, outcomes);
    var run := Run(lines, outcomes);
    assert run == loop + [Quit];
    LoopRestarts(lines, outcomes);
    assert run[..|run| - 1] == loop;
    OnlyDropLast(loop, Quit, VisitKind);
    LoopVisits(lines, outcomes);
    OnlyDropLast(loop, Quit, WriteKind);
    LoopWrites(lines, outcomes);
    OnlyDropLast(loop, Quit, ErrorKind);
    LoopErrors(lines, outcomes);
  }

  /** Every restart comes right after a flush. */
  ghost predicate RestartsFollowFlush(t: seq<Event>) {
    forall p :: 0 <= p < |t| && t[p].Restarted? ==> p > 0 && t[p - 1] == Flushed
  }

  /** A flush closes a URL's output: what follows it is that URL's restart,
      the next URL's visit, or nothing. */
  ghost predicate FlushClosesUrl(t: seq<Event>) {
    forall p :: 0 <= p < |t| && t[p] == Flushed ==> p + 1 == |t| || t[p + 1].Restarted? || t[p + 1].Visited?
  }

  lemma StepOrdered(i: nat, line: string, o: UrlOutcome)
    ensures RestartsFollowFlush(Step(i, line, o)) && FlushClosesUrl(Step(i, line, o))
  {
    var t := Step(i, line, o);
    match o {
      case Raised =>
        assert t == [Visited(line), ErrorLogged(line)];
      case Processed(rs) =>
        var w := Writes(rs);
        assert t == [Visited(line)] + w + [Flushed] + RestartEvents(i);
        forall p | 0 <= p < |t| && (t[p].Restarted? || t[p] == Flushed)
          ensures p == |w| + 1 || p == |w| + 2
        {
        }
    }
  }

  /** The order the source fixes between kinds (main.py:68-74): a URL's
      writes, then its flush, then its restart, before the next URL's
      visit. In the loop's trace every restart comes right after a flush,
      and a flush is followed only by a restart, the next visit, or the
      end of the loop. */
  lemma {:induction false} LoopOrdered(lines: seq<string>, outcomes: seq<UrlOutcome>)
    requires |outcomes| == |lines|
    ensures RestartsFollowFlush(Loop(lines, outcomes))
    ensures FlushClosesUrl(Loop(lines, outcomes))
    decreases |lines|
  {
    if |lines| > 0 {
      var n := |lines| - 1;
      var a, t := Loop(lines[..n], outcomes[..n]), Step(n, lines[n], outcomes[n]);
      var l := Loop(lines, outcomes);
      assert l == a + t;
      LoopOrdered(lines[..n], outcomes[..n]);
      StepOrdered(n, lines[n], outcomes[n]);
      forall p | 0 <= p < |l| && l[p].Restarted? ensures p > 0 && l[p - 1] == Flushed {
        if p < |a| {
          assert a[p] == l[p];
        } else {
          assert t[p - |a|] == l[p];
        }
      }
      forall p | 0 <= p < |l| && l[p] == Flushed
        ensures p + 1 == |l| || l[p + 1].Restarted? || l[p + 1].Visited?
      {
        if p < |a| {
          assert a[p] == l[p];
          if p + 1 == |a| {
            assert l[p + 1] == t[0];
          }
        } else {
          assert t[p - |a|] == l[p];
        }
      }
    }
  }

  /** Appending an event of another kind leaves a filtered view unchanged. */
  lemma OnlyDropLast(t: seq<Event>, e: Event, k: EventKind)
    requires KindOf(e) != k
    ensures Only(t + [e], k) == Only(t, k)
  {
    assert (t + [e])[..|t|] == t;
  }

  /** Below 200, index 100 is the only positive multiple of 100. */
  lemma RestartIndicesBelow200(j: nat)
    ensures RestartsAfter(j) && j < 200 ==> j == 100
  {
    if 100 < j < 200 {
      assert j % 100 == j - 100;
    }
  }

  /** The first restart comes after the 101st URL, not the 100th; and a
      failure at that index postpones the restart to index 200. */
  lemma RestartSchedule(lines: seq<string>, outcomes: seq<UrlOutcome>)
    requires |outcomes| == |lines|
    ensures forall j: nat :: j < 100 ==> Restarted(j) !in Run(lines, outcomes)
    ensures |lines| > 100 && outcomes[100].Raised? ==>
              forall j: nat :: j < 200 ==> Restarted(j) !in Run(lines, outcomes)
  {
    var loop := Loop(lines, outcomes);
    assert Run(lines, outcomes) == loop + [Quit];
    LoopRestarts(lines, outcomes);
    forall j: nat | j < 200 ensures Restarted(j) in Run(lines, outcomes) ==> j == 100 {
      RestartIndicesBelow200(j);
    }
  }

  /** End to end with the task file: a worker given the block its task file
      was written from hands `processURL` exactly those URLs, in order, as
      long as every URL is already stripped and holds no newline. */
  lemma WorkerVisitsItsBlock(block: seq<string>, outcomes: seq<UrlOutcome>)
    requires forall k :: 0 <= k < |block| ==> '\n' !in block[k] && Stripped(block[k])
    requires |outcomes| == |block|
    ensures |ReadLines(TaskFileText(block))| == |block|
    ensures Only(Run(ReadLines(TaskFileText(block)), outcomes), VisitKind)
            == Visits(ReadLines(TaskFileText(block)))
    ensures forall k :: 0 <= k < |block| ==> Strip(ReadLines(TaskFileText(block))[k]) == block[k]
  {
    var lines := ReadLines(TaskFileText(block));
    TaskFileRoundTrip(block);
    RunViews(lines, outcomes);
    forall k | 0 <= k < |block| ensures Strip(lines[k]) == block[k] {
      StripRemovesPadding("", block[k], "\n");
      assert "" + block[k] + "\n" == lines[k];
    }
  }
}

=== FILE: wrappers.dfy ===
/** Failure-compatible wrappers used across the model: an optional value and
    a value-or-error, standing in for Python's `None` and raised exceptions. */
module Wrappers {

  datatype Option<+T> = None | Some(value: T) {

    predicate IsFailure() {
      None?
    }

    function PropagateFailure<U>(): Option<U>
      requires None?
    {
      None
    }

    function Extract(): T
      requires Some?
    {
      value
    }
  }

  datatype Result<+R, +E> = Success(value: R) | Failure(error: E) {

    predicate IsFailure() {
      Failure?
    }

    function PropagateFailure<U>(): Result<U, E>
      requires Failure?
    {
      Failure(error)
    }

    function Extract(): R
      requires Success?
    {
      value
    }
  }
}
